=== FILE: README.md ===
# poll — a Dafny model of question expansion, pairing, the chart endpoints and the question form

The poll application asks a parameterised question many times. Its template
holds placeholders (`{{ gender }}`), and its context lists the values of each
placeholder. The choices are the labels respondents pick from, shown two at a
time as slots A and B. This project models the parts of the application that
compute things:

- **Question expansion** (`Question.render_all_questions`, module
  `Expansion`). The cartesian product of the context dimensions, taken in key
  order, gives one rendered question per combination. An empty context gives
  the raw template.
- **Choice pairing** (`Question.choice_pairs`, module `Pairs`). This is
  first-seen deduplication followed by `itertools.combinations` or
  `itertools.permutations` of size 2.
- **The chart endpoints** (`poll/api.py`, modules `ContextFilter`, `Charts`
  and `Ranking`):
  - the context filter the three endpoints share;
  - the preference counts;
  - the head-to-head heatmap;
  - the Elo ranking, including its stable descending sort.
- **The question form** (`QuestionForm`, module `Forms`):
  - reading the choices text area back into a list, with Python's
    `splitlines()` and `strip()` modelled character by character;
  - the newline join that fills the text area when a question is edited;
  - the empty-input branch of the context field.

Module `Models` holds the entities. A question is its template, its context
and its choices. The context is a sequence of named dimensions in key
insertion order. An answer is its context assignment, the pair it showed
(`{"A": .., "B": ..}`) and the slot picked.

Code that loops and updates state is modelled as methods with loops, proved
against recursive specification functions. This covers the deduplication
comprehension, the filter loop, the counting loop, the heatmap loop over an
`array2`, and the Elo loop. Each such function has its own lemmas.

External behaviour is passed in as function parameters:

- the Django template engine is `render`;
- the expected score `1 / (1 + 10 ** ((rb - ra) / 400))` is `expected`;
- `round(r, 2)` is `round`;
- `json.loads` is `loads`.

## Model

| member | source | states |
|---|---|---|
| Expansion.RenderAllQuestions | poll/main/models.py:18-57 | an empty context yields exactly `[(template, {})]`; otherwise result k is the template rendered under assignment k, paired with that assignment, one per assignment |
| Expansion.AssignmentCount | poll/main/models.py:39-52 | the number of expanded questions is the product of the dimensions' value counts, with a scalar counting as one; an empty context gives one empty assignment; a dimension with no values gives none |
| Expansion.AssignmentsAreBindings | poll/main/models.py:43-53 | every assignment binds exactly the context's keys, each to a value of its own dimension |
| Expansion.AllBindingsAreAssignments | poll/main/models.py:43-53 | conversely, every binding of the keys to values of their dimensions is among the assignments |
| Expansion.AssignmentOrder | poll/main/models.py:52-53 | assignments follow `itertools.product` order: the first key varies slowest, and assignment `i*|rest|+j` extends rest-assignment `j` with value `i` of the first key |
| Expansion.ProductMember | poll/main/models.py:52 | a tuple is in the product exactly when it picks one element of every value sequence, in order |
| Expansion.Product | poll/main/models.py:52 | `itertools.product` has as many tuples as the product of the sequence lengths |
| Expansion.Bind | poll/main/models.py:53 | `dict(zip(keys, values))` with one value per key binds exactly the keys |
| Expansion.BindAt | poll/main/models.py:53 | `dict(zip(keys, values))` over distinct keys maps the i-th key to the i-th value |
| Expansion.GenderExample | poll/main/tests.py:7-16 | the context `{"gender": ["man", "woman"]}` expands to the `man` assignment followed by the `woman` assignment |
| Pairs.DeduplicateChoices | poll/main/models.py:96-98 | the `seen`-set comprehension computes the first-seen deduplication `Distinct(items)` |
| Pairs.DistinctMembers | poll/main/models.py:96-98 | the deduplicated list has no repeats, holds exactly the input's items and is no longer than the input |
| Pairs.DistinctIsFirstSeenOrder | poll/main/models.py:72-74 | deduplication preserves the order of first appearance |
| Pairs.DistinctOfDistinct | poll/main/models.py:96-98 | a list without repeats is left unchanged |
| Pairs.CombinationIndicesSpec | poll/main/models.py:103 | `combinations(range(n), 2)` yields n(n-1)/2 pairs `i < j < n`, every such pair, in strictly increasing lexicographic order |
| Pairs.PermutationIndicesSpec | poll/main/models.py:103 | `permutations(range(n), 2)` yields n(n-1) pairs of distinct positions, every such pair, in strictly increasing lexicographic order |
| Pairs.ChoicePairs | poll/main/models.py:95-104 | the pairs are the items at the combination (or permutation) positions. Their count is n(n-1)/2 (or n(n-1)), so none for fewer than two items. Every choice of two positions gives a pair. After deduplication there is no self-pair and no repeated pair, and an unordered pair never appears in both orientations |
| Pairs.PairsAtCover | poll/main/models.py:104 | each chosen index pair gives the pair of items at those positions |
| Pairs.PairsAtDistinct | poll/main/models.py:96-104 | over items without repeats, strictly ordered pairs of distinct positions give no self-pair and no repeat, and no reversed pair when A's position comes first |
| Pairs.PairsComeFromItems | poll/main/models.py:103-104 | every pair is made of the items at two distinct positions, the A position first when unordered |
| Pairs.DocstringExample | poll/main/models.py:85-93 | Turkey/Mexico/Germany gives the three combinations and the six permutations in the documented order |
| Pairs.RepeatedChoiceExample | poll/main/tests.py:18-23 | choices `["A", "A", "B"]` deduplicate to `["A", "B"]` and give the single pair A/B |
| ContextFilter.Narrow | poll/api.py:18 | `filter(context__key=value)` never adds an answer, and keeps exactly the answers whose context holds the value under the key |
| ContextFilter.ApplyContextFilters | poll/api.py:15-18 | the filter loop over the declared keys computes `Admitted`: the answers that pass the filter of every key, in their order |
| ContextFilter.AdmittedOneMoreKey | poll/api.py:15-18 | one more key narrows by that key's value when the request gives a non-empty one, and otherwise changes nothing |
| ContextFilter.AdmittedIsSubsequence | poll/api.py:15-18 | filtering never adds an answer: the kept answers are exactly those of the input that pass every key, no more of each than the input has |
| ContextFilter.NoActiveFilterKeepsAll | poll/api.py:16-17 | a request with no non-empty value for any declared key keeps all answers |
| ContextFilter.UndeclaredKeyIgnored | poll/api.py:15 | a request parameter whose name is not a declared context key has no effect |
| Charts.PreferenceCounts | poll/api.py:20-24 | the counting loop builds `Tally` of the admitted answers' chosen labels; its keys are exactly the labels seen, and each count is that label's number of occurrences, at least one |
| Charts.ChosenLabel | poll/api.py:22-23 | an answer counts exactly when its choice names a shown slot holding a non-empty label, and then it counts that label |
| Charts.TallyCounts | poll/api.py:20-24 | every count in a tally is the multiplicity of its label, at least one |
| Charts.TallyTotal | poll/api.py:20-24 | the counts sum to the number of answers that had a chosen label |
| Charts.PositionIndex | poll/api.py:41 | `{c: i for i, c in enumerate(choices)}` maps exactly the axis labels, each back to its own position |
| Charts.PreferenceHeatmap | poll/api.py:40-57 | the axis is the deduplicated choice list and the matrix is axis-by-axis. It crashes exactly when an admitted answer would add a win of a label over itself. Otherwise the diagonal is `None` and cell (i, j) counts the admitted answers in which label i beat label j |
| Charts.TallyAnswers | poll/api.py:47-55 | the loop stops exactly when some answer pairs a label with itself, and otherwise leaves every cell counting its head-to-head wins |
| Charts.Verdict | poll/api.py:48-55 | an answer has a verdict exactly when both slots hold known labels and its choice is slot A or slot B. The winner is the chosen slot's label, and winner and loser are the two shown labels |
| Charts.CountAnswer | poll/api.py:48-55 | one answer: report a self-pair and leave the matrix as it was, skip it, or raise exactly the cell of its verdict |
| Charts.AddWin | poll/api.py:53-55 | raising the (winner, loser) cell by one turns a matrix that counts the first k answers into one that counts the first k+1 |
| Charts.HeadToHeadStep | poll/api.py:47-55 | one more answer raises the count of exactly its (winner, loser) cell by one |
| Charts.CrashesIff | poll/api.py:43-55 | the heatmap loop crashes exactly when some answer in it is a self-pair, because that answer's cell is the `None` diagonal |
| Charts.InitialRatings | poll/api.py:72 | every choice, and nothing else, is rated |
| Charts.EloUpdate | poll/api.py:76-91 | an update keeps the set of rated labels and changes nothing for an answer without a verdict |
| Charts.EloUpdateSkips | poll/api.py:78-89 | an answer whose labels are not both rated, or whose choice is neither slot, changes nothing |
| Charts.ReplayAnswers | poll/api.py:71-91 | the rating loop computes `Replay`: the answers' updates applied in order from 1000 per choice |
| Charts.EloUpdateZeroSum | poll/api.py:80-91 | an update between two different labels keeps the sum of all ratings |
| Charts.ReplayZeroSum | poll/api.py:71-91 | with no self-pair answers, the ratings always sum to 1000 times the number of choices |
| Charts.WinnerGainsWhatLoserLoses | poll/api.py:82-91 | with expected scores strictly between 0 and 1, the winner's rating rises and the loser's falls by the same amount |
| Charts.RematchLowersWinner | poll/api.py:75-91 | after X beats Y, a second answer in which Y beats X lowers X's rating again |
| Charts.OrderMatters | poll/api.py:64-91 | the ratings depend on answer order. When the expected score grows strictly with the rating gap, one win each for X and Y leaves X rated higher when X's win comes last |
| Charts.Standings | poll/api.py:94 | one rounded entry per choice, in choice order |
| Charts.EloRatings | poll/api.py:63-97 | the ranking is the stable descending sort of the standings: descending by rating, a permutation of the standings, and entries rated the same keep their order |
| Ranking.SortDescending | poll/api.py:93-97 | the sort is a permutation of the entries |
| Ranking.SortDescendingSpec | poll/api.py:93-97 | `sorted(..., key=rating, reverse=True)` gives a descending list, and entries of equal rating keep their relative order |
| Ranking.InsertKeepsDescending | poll/api.py:93-97 | inserting into a descending list keeps it descending |
| Ranking.InsertAfterEqual | poll/api.py:93-97 | an inserted entry goes after the entries already rated the same |
| Forms.CleanChoices | poll/main/forms.py:42-49 | missing or empty input gives `[]` and a list passes through unchanged. A non-empty tuple is split by the lines of its `str()` text. Text gives at most one label per line, each non-empty, with no white space at either end and no line boundary |
| Forms.TupleIsNotPassedThrough | poll/main/forms.py:46-49 | a tuple is not passed through: `("a", "b")` gives the single label `('a', 'b')`, while the list `["a", "b"]` is returned as it is |
| Forms.CleanChoicesLines | poll/main/forms.py:49 | the labels are the stripped non-blank lines, one per such line, in line order; blank lines are the only ones dropped |
| Forms.KeepIsNonBlankLines | poll/main/forms.py:49 | the comprehension keeps exactly the non-blank lines, in increasing line order, each stripped |
| Forms.SplitLines | poll/main/forms.py:49 | `splitlines()` gives no piece exactly for the empty string, never more pieces than characters, and no piece that contains a line boundary |
| Forms.Keep | poll/main/forms.py:49 | the comprehension gives no more labels than lines, each non-empty and stripped |
| Forms.SplitJoin | poll/main/forms.py:29 | `splitlines()` of the newline join of non-empty single-line labels gives the labels back |
| Forms.Strip | poll/main/forms.py:49 | `strip()` gives the empty string or a string with no white space at either end, never longer than its input |
| Forms.StripSpec | poll/main/forms.py:49 | `strip()` cuts a white-space prefix and a white-space suffix and nothing else: the result is the piece of the input between them, and it is empty exactly when the input is all white space |
| Forms.StripExample | poll/main/forms.py:49 | `" Turkey ".strip()` is `"Turkey"` |
| Forms.Join | poll/main/forms.py:29 | the newline join of no labels is empty; otherwise it starts with the first label and ends with the last |
| Forms.CleanJoin | poll/main/forms.py:42-49 | cleaning the newline join of stripped, single-line labels returns the same labels |
| Forms.CleanIdempotent | poll/main/forms.py:42-49 | cleaning the join of a cleaned list reproduces that list |
| Forms.InitialChoices | poll/main/forms.py:25-29 | an unbound form shows a stored list or tuple as text; a bound form, or a value that is neither, is left alone |
| Forms.EditRoundTrip | poll/main/forms.py:22-49 | editing a question and saving the prefilled text unchanged returns the stored labels, when they are stripped and single-line |
| Forms.CleanContext | poll/main/forms.py:31-40 | missing or empty input gives `{}` whatever the parser does; a decoded object passes through; non-empty text that parses gives the parsed value; the only failure is unparsable text, with the message "Enter valid JSON" |

## Left out

- The Django ORM: model saving, `get_object_or_404`, and the query sets. A question and its answers are values. `filter(context__key=value)` is a sequence filter, and the result is returned as a value, not as a JSON response.
- `Question.latest_answers` is not part of this model, and neither is its source. The endpoints take the latest answers as an input, in primary-key order.
- Template compilation and rendering are Django's. They are the parameter `render`, and its output is not constrained.
- Expansion.RenderAllQuestions: `render` is a pure, total function, so the model misses two effects of the template engine. First, `bound_ctx` is both handed to `Context` and returned (poll/main/models.py:53-55). A tag that assigns a variable, such as `{% now "Y" as year %}`, `{% url … as v %}`, `{% cycle … as v %}`, `{% firstof … as v %}` or `{% regroup %}`, adds that key to the returned assignment; in the model each returned assignment is exactly `Assignments(q.context)[k]`. Second, `Template(self.template)` raises `TemplateSyntaxError` for a malformed template, but only when the context is not empty (poll/main/models.py:39-40 against 49); the model never fails.
- Floating point: ratings are reals. The expected score `1 / (1 + 10 ** ((rb - ra) / 400))` is the parameter `expected`, and `round(r, 2)` is the parameter `round`. Where the direction of a change matters, a lemma requires the expected score to lie strictly between 0 and 1, or to grow strictly with the rating gap; the logistic formula does both.
- JSON: `json.loads` is the parameter `loads` of `Forms.CleanContext`. The `json.dumps` of the context in `QuestionForm.__init__` (poll/main/forms.py:26-27) is not modelled.
- Context scalars are modelled as their text. A number or boolean scalar in a context or an answer is not distinguished from its text.
- Django's own field cleaning runs before `clean_choices` and is not modelled. That covers the required-field check and the stripping of the whole text.
- Batch submission to the language-model API, the admin actions, the views and the URL routes are outside the modelled core.
- Charts.PreferenceHeatmap: Python raises `TypeError` when an answer pairs a label with itself, because it adds one to the `None` diagonal. The model returns `crashed = true` and the partly updated matrix instead of raising.
- Charts.PreferenceHeatmap: the loop body is split into the methods `TallyAnswers`, `CountAnswer` and `AddWin`. The function has one loop; the split only keeps each proof small. The order of updates is unchanged.
- Forms.CleanChoices: the `str()` text of a tuple is Python's `repr`, which the model does not compute. A tuple value carries that text as its field `shown`.
- Charts.PreferenceCounts: the `counts` dictionary is a map, so the order in which its keys were first seen (poll/api.py:20-24), which Python keeps in the response, is not modelled.
- Charts.EloUpdateZeroSum: zero-sum is stated only for answers whose two labels differ. When A and B are the same label, the second assignment overwrites the first and the total changes.
- Pairs.RepeatedChoiceExample: the test at poll/main/tests.py:23 expects tuples, while `choice_pairs` returns dictionaries (poll/main/models.py:104). The model follows the code and returns a `Pair` value with fields `a` and `b`.
- `QuestionForm.Meta.fields` lists `text`, while the model's field is `template` (poll/main/forms.py:17 against poll/main/models.py:9). The model uses `template`.

=== FILE: charts.dfy ===
/** The chart endpoints of the API: preference counts, the head-to-head
    heatmap and the Elo ranking, each computed over a question's latest
    answers after the context filter. The question lookup and the query for
    the latest answers are not modelled: the question and its latest
    answers, in primary-key order, are inputs. */
module Charts {
  import opened Models
  import opened Pairs
  import opened ContextFilter
  import opened Ranking

  // ---------------------------------------------------------------------
  // Preference counts
  // ---------------------------------------------------------------------

  /** `ans.choices.get(ans.choice)`, kept only when it is a non-empty label. */
  function ChosenLabel(a: Answer): (l: Option<string>)
    ensures l.Some? <==> a.choice in a.choices && a.choices[a.choice] != ""
    ensures l.Some? ==> l.value in a.choices.Values && l.value == a.choices[a.choice]
  {
    if a.choice in a.choices && a.choices[a.choice] != "" then Some(a.choices[a.choice]) else None
  }

  /** The chosen labels of the answers that have one, in answer order. */
  function ChosenLabels(answers: seq<Answer>): seq<string>
    decreases |answers|
  {
    if answers == [] then []
    else
      var init := ChosenLabels(answers[..|answers| - 1]);
      match ChosenLabel(answers[|answers| - 1])
      case Some(l) => init + [l]
      case None => init
  }

  /** The label-to-count map built by counting the labels one by one; its
      keys are the labels seen. */
  function Tally(labels: seq<string>): (m: map<string, nat>)
    ensures forall l :: l in m <==> l in labels
    decreases |labels|
  {
    if labels == [] then map[]
    else
      var init, x := labels[..|labels| - 1], labels[|labels| - 1];
      var m := Tally(init);
      assert labels == init + [x];
      m[x := (if x in m then m[x] else 0) + 1]
  }

  /** The sum of the counts stored under the given keys. */
  function TotalOver(m: map<string, nat>, keys: seq<string>): nat
    requires forall k :: k in keys ==> k in m
    decreases |keys|
  {
    if keys == [] then 0 else TotalOver(m, keys[..|keys| - 1]) + m[keys[|keys| - 1]]
  }

  /** A tally holds, for each label seen, the number of times the label
      occurs, so never less than one. */
  lemma {:induction false} TallyCounts(labels: seq<string>)
    ensures forall l :: l in Tally(labels) ==> Tally(labels)[l] == multiset(labels)[l] >= 1
    decreases |labels|
  {
    if labels != [] {
      var init, x := labels[..|labels| - 1], labels[|labels| - 1];
      assert labels == init + [x];
      TallyCounts(init);
    }
  }

  lemma {:induction false} TotalOverUntouched(m: map<string, nat>, keys: seq<string>, x: string, v: nat)
    requires forall k :: k in keys ==> k in m
    requires x !in keys
    ensures TotalOver(m[x := v], keys) == TotalOver(m, keys)
    decreases |keys|
  {
    if keys != [] {
      TotalOverUntouched(m, keys[..|keys| - 1], x, v);
    }
  }

  lemma {:induction false} TotalOverBump(m: map<string, nat>, keys: seq<string>, x: string, v: nat)
    requires forall k :: k in keys ==> k in m
    requires NoDuplicates(keys) && x in keys
    ensures TotalOver(m[x := v], keys) + m[x] == TotalOver(m, keys) + v
    decreases |keys|
  {
    var init, y := keys[..|keys| - 1], keys[|keys| - 1];
    assert NoDuplicates(init);
    if y == x {
      assert x !in init;
      TotalOverUntouched(m, init, x, v);
    } else {
      assert x in init;
      TotalOverBump(m, init, x, v);
    }
  }

  lemma TotalOverSeen(m: map<string, nat>, d: seq<string>, x: string)
    requires forall k :: k in d ==> k in m
    requires NoDuplicates(d) && x in d
    ensures TotalOver(m[x := m[x] + 1], d) == TotalOver(m, d) + 1
  {
    TotalOverBump(m, d, x, m[x] + 1);
  }

  lemma TotalOverNew(m: map<string, nat>, d: seq<string>, x: string)
    requires forall k :: k in d ==> k in m
    requires x !in d
    ensures forall k :: k in d + [x] ==> k in m[x := 1]
    ensures TotalOver(m[x := 1], d + [x]) == TotalOver(m, d) + 1
  {
    TotalOverUntouched(m, d, x, 1);
    assert (d + [x])[..|d|] == d;
  }

  /** The counts add up to the number of labels counted: summed over the
      labels in first-seen order, each once, they give the number of
      answers that had a chosen label. */
  lemma {:induction false} TallyTotal(labels: seq<string>)
    ensures forall k :: k in Distinct(labels) ==> k in Tally(labels)
    ensures TotalOver(Tally(labels), Distinct(labels)) == |labels|
    decreases |labels|
  {
    DistinctMembers(labels);
    if labels != [] {
      var init, x := labels[..|labels| - 1], labels[|labels| - 1];
      TallyTotal(init);
      DistinctMembers(init);
      var m, d := Tally(init), Distinct(init);
      if x in init {
        assert x in d;
        TotalOverSeen(m, d, x);
      } else {
        assert x !in d && x !in m;
        TotalOverNew(m, d, x);
      }
    }
  }

  /** `preference_counts`: filter the answers, then count each chosen label. */
  method PreferenceCounts(q: Question, answers: seq<Answer>, query: map<string, string>)
    returns (counts: map<string, nat>)
    ensures var labels := ChosenLabels(Admitted(answers, Names(q.context), query));
      counts == Tally(labels) &&
      (forall l :: l in counts <==> l in labels) &&
      (forall l :: l in counts ==> counts[l] == multiset(labels)[l] >= 1)
  {
    var filtered := ApplyContextFilters(answers, Names(q.context), query);
    counts := map[];
    for k := 0 to |filtered|
      invariant counts == Tally(ChosenLabels(filtered[..k]))
    {
      var ans := filtered[k];
      ChosenLabelsStep(filtered, k);
      if ans.choice in ans.choices && ans.choices[ans.choice] != "" {
        var chosen := ans.choices[ans.choice];
        counts := counts[chosen := (if chosen in counts then counts[chosen] else 0) + 1];
      }
    }
    assert filtered[..|filtered|] == filtered;
    TallyCounts(ChosenLabels(filtered));
  }

  lemma ChosenLabelsStep(s: seq<Answer>, k: nat)
    requires k < |s|
    ensures ChosenLabels(s[..k + 1]) ==
      if ChosenLabel(s[k]).Some? then ChosenLabels(s[..k]) + [ChosenLabel(s[k]).value] else ChosenLabels(s[..k])
    ensures ChosenLabel(s[k]).Some? ==> Tally(ChosenLabels(s[..k + 1])) == Tally(ChosenLabels(s[..k]))[ChosenLabel(s[k]).value :=
      (if ChosenLabel(s[k]).value in Tally(ChosenLabels(s[..k])) then Tally(ChosenLabels(s[..k]))[ChosenLabel(s[k]).value] else 0) + 1]
  {
    assert s[..k + 1][..k] == s[..k];
    if ChosenLabel(s[k]).Some? {
      var ls := ChosenLabels(s[..k]) + [ChosenLabel(s[k]).value];
      assert ls[..|ls| - 1] == ChosenLabels(s[..k]);
    }
  }

  // ---------------------------------------------------------------------
  // Preference heatmap
  // ---------------------------------------------------------------------

  /** A heatmap cell: `None` on the diagonal, a win count elsewhere. */
  datatype Cell = Null | Wins(count: nat)

  /** The labels of an axis, as the keys of its position index. */
  function OnAxis(axis: seq<string>): set<string> {
    set c | c in axis
  }

  /** The outcome an answer contributes, as (winner, loser): both labels of
      its pair are known and its choice is slot A or slot B. */
  function Verdict(a: Answer, known: set<string>): (v: Option<(string, string)>)
    ensures v.Some? <==>
      "A" in a.choices && "B" in a.choices && a.choices["A"] in known && a.choices["B"] in known &&
      (a.choice == "A" || a.choice == "B")
    ensures v.Some? ==>
      v.value.0 == a.choices[a.choice] && v.value.0 in known && v.value.1 in known &&
      multiset{v.value.0, v.value.1} == multiset{a.choices["A"], a.choices["B"]}
  {
    var x, y := Get(a.choices, "A"), Get(a.choices, "B");
    if x.None? || y.None? || x.value !in known || y.value !in known then None
    else if a.choice == "A" then Some((x.value, y.value))
    else if a.choice == "B" then Some((y.value, x.value))
    else None
  }

  /** An answer that would add a win of a label over itself. */
  predicate SelfWin(a: Answer, known: set<string>) {
    Verdict(a, known).Some? && Verdict(a, known).value.0 == Verdict(a, known).value.1
  }

  /** The number of answers in which `winner` beat `loser`. */
  function HeadToHead(answers: seq<Answer>, known: set<string>, winner: string, loser: string): nat
    decreases |answers|
  {
    if answers == [] then 0
    else
      var last := if Verdict(answers[|answers| - 1], known) == Some((winner, loser)) then 1 else 0;
      HeadToHead(answers[..|answers| - 1], known, winner, loser) + last
  }

  /** `preference_heatmap`. The axis is the deduplicated choice list; cell
      (i, j) counts the answers in which choice i beat choice j, and the
      diagonal stays `None`. An answer that pairs a label with itself makes
      `preference_heatmap` add one to `None`, which raises: `crashed` reports it. */
  method PreferenceHeatmap(q: Question, answers: seq<Answer>, query: map<string, string>)
    returns (crashed: bool, axis: seq<string>, matrix: array2<Cell>)
    ensures axis == Distinct(q.choices)
    ensures matrix.Length0 == |axis| && matrix.Length1 == |axis|
    ensures crashed <==> exists a :: a in Admitted(answers, Names(q.context), query) && SelfWin(a, OnAxis(axis))
    ensures !crashed ==> forall i, j :: 0 <= i < |axis| && 0 <= j < |axis| ==>
      matrix[i, j] == if i == j then Null
                      else Wins(HeadToHead(Admitted(answers, Names(q.context), query), OnAxis(axis), axis[i], axis[j]))
  {
    var filtered := ApplyContextFilters(answers, Names(q.context), query);
    axis := Distinct(q.choices);
    DistinctMembers(q.choices);
    var index := PositionIndex(axis);
    var size := |axis|;
    matrix := new Cell[size, size](InitialCell);
    TalliedNothing(matrix, axis, OnAxis(axis));
    crashed := TallyAnswers(matrix, axis, index, filtered);
    CrashesIff(filtered, OnAxis(axis));
  }

  /** The loop of `preference_heatmap` over the filtered answers, in their
      order. It stops at the first answer that pairs a label with itself. */
  method TallyAnswers(matrix: array2<Cell>, axis: seq<string>, index: map<string, int>, answers: seq<Answer>)
    returns (crashed: bool)
    requires NoDuplicates(axis) && Positions(index, axis)
    requires Tallied(matrix, axis, OnAxis(axis), [])
    modifies matrix
    ensures crashed <==> Crashes(answers, OnAxis(axis))
    ensures !crashed ==> Tallied(matrix, axis, OnAxis(axis), answers)
  {
    ghost var known := OnAxis(axis);
    assert answers[..0] == [];
    for k := 0 to |answers|
      invariant Tallied(matrix, axis, known, answers[..k])
      invariant !Crashes(answers[..k], known)
    {
      var selfWin := CountAnswer(matrix, axis, index, known, answers, k);
      CrashesStep(answers, k, known);
      if selfWin {
        CrashesPrefix(answers, k + 1, known);
        return true;
      }
    }
    assert answers[..|answers|] == answers;
    return false;
  }

  /** The body of the heatmap loop for the answer at position `k`: an answer
      whose labels are not both on the axis, or whose choice is neither slot,
      is skipped; otherwise the cell (winner, loser) goes up by one. When
      winner and loser are the same label that cell is the diagonal `None`,
      and `preference_heatmap` raises: `selfWin` reports it and the matrix is left. */
  method CountAnswer(matrix: array2<Cell>, axis: seq<string>, index: map<string, int>, ghost known: set<string>,
                     s: seq<Answer>, k: nat)
    returns (selfWin: bool)
    requires k < |s| && NoDuplicates(axis) && known == OnAxis(axis)
    requires Positions(index, axis)
    requires Tallied(matrix, axis, known, s[..k])
    modifies matrix
    ensures selfWin <==> SelfWin(s[k], known)
    ensures !selfWin ==> Tallied(matrix, axis, known, s[..k + 1])
    ensures selfWin ==> Tallied(matrix, axis, known, s[..k]) && unchanged(matrix)
  {
    var ans := s[k];
    var a, b := Get(ans.choices, "A"), Get(ans.choices, "B");
    if a.None? || b.None? || a.value !in index || b.value !in index {
      TalliedSkip(matrix, axis, known, s, k);
      return false;
    }
    var w, l := -1, -1;
    if ans.choice == "A" {
      w, l := index[a.value], index[b.value];
    } else if ans.choice == "B" {
      w, l := index[b.value], index[a.value];
    } else {
      TalliedSkip(matrix, axis, known, s, k);
      return false;
    }
    assert Verdict(ans, known) == Some((axis[w], axis[l]));
    if w == l {
      return true;
    }
    AddWin(matrix, axis, known, s, k, w, l);
    return false;
  }

  /** Whether some answer of `s` would add a win of a label over itself. */
  predicate Crashes(s: seq<Answer>, known: set<string>)
    decreases |s|
  {
    s != [] && (Crashes(s[..|s| - 1], known) || SelfWin(s[|s| - 1], known))
  }

  lemma CrashesStep(s: seq<Answer>, k: nat, known: set<string>)
    requires k < |s|
    ensures Crashes(s[..k + 1], known) <==> Crashes(s[..k], known) || SelfWin(s[k], known)
  {
    assert s[..k + 1][..k] == s[..k];
  }

  /** Once some answer crashes the loop, any longer run of answers does. */
  lemma {:induction false} CrashesPrefix(s: seq<Answer>, n: nat, known: set<string>)
    requires n <= |s| && Crashes(s[..n], known)
    ensures Crashes(s, known)
    decreases |s| - n
  {
    if n < |s| {
      CrashesStep(s, n, known);
      CrashesPrefix(s, n + 1, known);
    } else {
      assert s[..n] == s;
    }
  }

  lemma {:induction false} CrashesIff(s: seq<Answer>, known: set<string>)
    ensures Crashes(s, known) <==> exists a :: a in s && SelfWin(a, known)
    decreases |s|
  {
    if s != [] {
      var init := s[..|s| - 1];
      CrashesIff(init, known);
      assert s == init + [s[|s| - 1]];
    }
  }

  /** The matrix holds, for every ordered pair of distinct axis labels, the
      number of answers of `s` in which the first beat the second. */
  ghost predicate Tallied(matrix: array2<Cell>, axis: seq<string>, known: set<string>, s: seq<Answer>)
    reads matrix
  {
    matrix.Length0 == |axis| && matrix.Length1 == |axis| &&
    forall i, j :: 0 <= i < |axis| && 0 <= j < |axis| ==>
      matrix[i, j] == if i == j then Null else Wins(HeadToHead(s, known, axis[i], axis[j]))
  }

  /** `0 if i != j else None`. */
  function InitialCell(i: nat, j: nat): Cell {
    if i == j then Null else Wins(0)
  }

  /** The matrix as built, zero off the diagonal, has counted no answer. */
  lemma TalliedNothing(matrix: array2<Cell>, axis: seq<string>, known: set<string>)
    requires matrix.Length0 == |axis| && matrix.Length1 == |axis|
    requires forall i, j :: 0 <= i < |axis| && 0 <= j < |axis| ==> matrix[i, j] == InitialCell(i, j)
    ensures Tallied(matrix, axis, known, [])
  {
  }

  /** `index` maps each label of the axis, and nothing else, to its position. */
  ghost predicate Positions(index: map<string, int>, axis: seq<string>) {
    (forall c :: c in index <==> c in OnAxis(axis)) &&
    (forall c :: c in index ==> 0 <= index[c] < |axis| && axis[index[c]] == c)
  }

  /** `{c: i for i, c in enumerate(axis)}` for a list without repeats. */
  function PositionIndex(axis: seq<string>): (index: map<string, int>)
    requires NoDuplicates(axis)
    ensures Positions(index, axis)
  {
    var index := map i | 0 <= i < |axis| :: axis[i] := i;
    assert forall c | c in index :: 0 <= index[c] < |axis| && axis[index[c]] == c by {
      forall c | c in index
        ensures 0 <= index[c] < |axis| && axis[index[c]] == c
      {
        var i :| 0 <= i < |axis| && axis[i] == c;
        assert index[axis[i]] == i;
      }
    }
    index
  }

  /** Counting one more answer adds one to exactly the cell of its verdict. */
  lemma HeadToHeadStep(s: seq<Answer>, k: nat, known: set<string>)
    requires k < |s|
    ensures forall w, l ::
      HeadToHead(s[..k + 1], known, w, l) == HeadToHead(s[..k], known, w, l) + (if Verdict(s[k], known) == Some((w, l)) then 1 else 0)
  {
    assert s[..k + 1][..k] == s[..k];
  }

  /** An answer without a verdict leaves every cell as it was. */
  lemma TalliedSkip(matrix: array2<Cell>, axis: seq<string>, known: set<string>, s: seq<Answer>, k: nat)
    requires k < |s| && Verdict(s[k], known).None?
    requires Tallied(matrix, axis, known, s[..k])
    ensures Tallied(matrix, axis, known, s[..k + 1])
  {
    HeadToHeadStep(s, k, known);
  }

  /** `matrix[w][l] += 1` for the answer at position `k`, whose verdict is
      that label `w` beat label `l`. */
  method AddWin(matrix: array2<Cell>, axis: seq<string>, ghost known: set<string>, s: seq<Answer>, k: nat, w: nat, l: nat)
    requires k < |s| && NoDuplicates(axis)
    requires w < |axis| && l < |axis| && w != l
    requires Verdict(s[k], known) == Some((axis[w], axis[l]))
    requires Tallied(matrix, axis, known, s[..k])
    modifies matrix
    ensures Tallied(matrix, axis, known, s[..k + 1])
  {
    HeadToHeadStep(s, k, known);
    matrix[w, l] := Wins(matrix[w, l].count + 1);
    forall i, j | 0 <= i < |axis| && 0 <= j < |axis| && (i != w || j != l)
      ensures axis[i] != axis[w] || axis[j] != axis[l]
    {
    }
  }

  // ---------------------------------------------------------------------
  // Elo ratings
  // ---------------------------------------------------------------------

  const InitialRating: real := 1000.0
  const KFactor: real := 32.0

  /** `{c: 1000.0 for c in choices}`. */
  function InitialRatings(axis: seq<string>): (r: map<string, real>)
    ensures r.Keys == OnAxis(axis)
  {
    map c | c in axis :: InitialRating
  }

  /** One answer's rating update. `expected(ra, rb)` stands for A's expected
      score; B's is its complement. Answers whose labels are not both rated,
      or whose choice is neither slot, change nothing. */
  function EloUpdate(r: map<string, real>, ans: Answer, expected: (real, real) -> real): (r': map<string, real>)
    ensures r'.Keys == r.Keys
    ensures Verdict(ans, r.Keys).None? ==> r' == r
  {
    var a, b := Get(ans.choices, "A"), Get(ans.choices, "B");
    if a.None? || b.None? || a.value !in r || b.value !in r then r
    else if ans.choice != "A" && ans.choice != "B" then r
    else
      var ra, rb := r[a.value], r[b.value];
      var ea := expected(ra, rb);
      var eb := 1.0 - ea;
      var sa := if ans.choice == "A" then 1.0 else 0.0;
      var sb := 1.0 - sa;
      r[a.value := ra + KFactor * (sa - ea)][b.value := rb + KFactor * (sb - eb)]
  }

  /** The update of an answer that counts, with the ratings, the expected
      scores and the actual scores of slot A and slot B written out. */
  lemma EloUpdateScores(r: map<string, real>, ans: Answer, expected: (real, real) -> real,
                        ra: real, rb: real, ea: real, eb: real, sa: real, sb: real)
    requires Get(ans.choices, "A").Some? && Get(ans.choices, "B").Some?
    requires Get(ans.choices, "A").value in r && Get(ans.choices, "B").value in r
    requires ra == r[Get(ans.choices, "A").value] && rb == r[Get(ans.choices, "B").value]
    requires ea == expected(ra, rb) && eb == 1.0 - ea
    requires (ans.choice == "A" && sa == 1.0 && sb == 0.0) || (ans.choice == "B" && sa == 0.0 && sb == 1.0)
    ensures EloUpdate(r, ans, expected) ==
      r[Get(ans.choices, "A").value := ra + KFactor * (sa - ea)][Get(ans.choices, "B").value := rb + KFactor * (sb - eb)]
  {
  }

  /** An answer whose labels are not both rated, or whose choice is neither
      slot, changes nothing. */
  lemma EloUpdateSkips(r: map<string, real>, ans: Answer, expected: (real, real) -> real)
    requires var a, b := Get(ans.choices, "A"), Get(ans.choices, "B");
      a.None? || b.None? || a.value !in r || b.value !in r || (ans.choice != "A" && ans.choice != "B")
    ensures EloUpdate(r, ans, expected) == r
  {
  }

  /** The ratings after the updates of the answers, in their order. */
  function Replay(r: map<string, real>, answers: seq<Answer>, expected: (real, real) -> real): (r': map<string, real>)
    ensures r'.Keys == r.Keys
    decreases |answers|
  {
    if answers == [] then r
    else EloUpdate(Replay(r, answers[..|answers| - 1], expected), answers[|answers| - 1], expected)
  }

  /** The sum of the ratings stored under the given keys. It mirrors
      `TotalOver` on counts: the counts are `nat` and the ratings `real`, and
      Dafny has no numeric type both could share. */
  function RatingSum(r: map<string, real>, keys: seq<string>): real
    requires forall k :: k in keys ==> k in r
    decreases |keys|
  {
    if keys == [] then 0.0 else RatingSum(r, keys[..|keys| - 1]) + r[keys[|keys| - 1]]
  }

  lemma {:induction false} RatingSumUntouched(r: map<string, real>, keys: seq<string>, x: string, v: real)
    requires forall k :: k in keys ==> k in r
    requires x !in keys
    ensures RatingSum(r[x := v], keys) == RatingSum(r, keys)
    decreases |keys|
  {
    if keys != [] {
      RatingSumUntouched(r, keys[..|keys| - 1], x, v);
    }
  }

  lemma {:induction false} RatingSumUpdate(r: map<string, real>, keys: seq<string>, x: string, v: real)
    requires forall k :: k in keys ==> k in r
    requires NoDuplicates(keys) && x in keys
    ensures RatingSum(r[x := v], keys) == RatingSum(r, keys) - r[x] + v
    decreases |keys|
  {
    var init, y := keys[..|keys| - 1], keys[|keys| - 1];
    assert NoDuplicates(init);
    if y == x {
      assert x !in init;
      RatingSumUntouched(r, init, x, v);
    } else {
      assert x in init;
      RatingSumUpdate(r, init, x, v);
    }
  }

  /** An update between two different labels is zero-sum: what one gains,
      the other loses, so the sum of all ratings is unchanged. */
  lemma EloUpdateZeroSum(r: map<string, real>, ans: Answer, expected: (real, real) -> real, keys: seq<string>)
    requires NoDuplicates(keys) && r.Keys == OnAxis(keys)
    requires !SelfWin(ans, r.Keys)
    ensures RatingSum(EloUpdate(r, ans, expected), keys) == RatingSum(r, keys)
  {
    var a, b := Get(ans.choices, "A"), Get(ans.choices, "B");
    if Verdict(ans, r.Keys).Some? {
      var x, y := a.value, b.value;
      var ra, rb := r[x], r[y];
      var ea := expected(ra, rb);
      var sa, sb := if ans.choice == "A" then 1.0 else 0.0, if ans.choice == "A" then 0.0 else 1.0;
      var nx, ny := ra + KFactor * (sa - ea), rb + KFactor * (sb - (1.0 - ea));
      EloUpdateScores(r, ans, expected, ra, rb, ea, 1.0 - ea, sa, sb);
      assert x != y;
      RatingSumUpdate(r, keys, x, nx);
      RatingSumUpdate(r[x := nx], keys, y, ny);
      assert nx - ra + ny - rb == 0.0;
    }
  }

  /** Starting from 1000 for every choice, replaying answers that never pair
      a label with itself keeps the total at 1000 times the number of
      choices. */
  lemma {:induction false} ReplayZeroSum(axis: seq<string>, answers: seq<Answer>, expected: (real, real) -> real)
    requires NoDuplicates(axis)
    requires forall k :: 0 <= k < |answers| ==> !SelfWin(answers[k], OnAxis(axis))
    ensures RatingSum(Replay(InitialRatings(axis), answers, expected), axis) == InitialRating * |axis| as real
    decreases |answers|
  {
    if answers == [] {
      InitialSum(axis);
    } else {
      var init := answers[..|answers| - 1];
      ReplayZeroSum(axis, init, expected);
      EloUpdateZeroSum(Replay(InitialRatings(axis), init, expected), answers[|answers| - 1], expected, axis);
    }
  }

  lemma {:induction false} InitialSum(axis: seq<string>)
    ensures RatingSum(InitialRatings(axis), axis) == InitialRating * |axis| as real
    decreases |axis|
  {
    if axis != [] {
      var init := axis[..|axis| - 1];
      assert InitialRatings(init).Keys <= InitialRatings(axis).Keys;
      RatingSumAgree(InitialRatings(init), InitialRatings(axis), init);
      InitialSum(init);
    }
  }

  lemma {:induction false} RatingSumAgree(r: map<string, real>, r2: map<string, real>, keys: seq<string>)
    requires forall k :: k in keys ==> k in r && k in r2 && r[k] == r2[k]
    ensures RatingSum(r, keys) == RatingSum(r2, keys)
    decreases |keys|
  {
    if keys != [] {
      RatingSumAgree(r, r2, keys[..|keys| - 1]);
    }
  }

  /** With expected scores strictly between 0 and 1, a counted answer raises
      the winner's rating and lowers the loser's by the same amount. */
  lemma WinnerGainsWhatLoserLoses(r: map<string, real>, ans: Answer, expected: (real, real) -> real)
    requires Verdict(ans, r.Keys).Some? && !SelfWin(ans, r.Keys)
    requires forall x, y :: 0.0 < expected(x, y) < 1.0
    ensures var (w, l) := Verdict(ans, r.Keys).value;
      var r' := EloUpdate(r, ans, expected);
      r'[w] > r[w] && r'[l] < r[l] && r'[w] - r[w] == r[l] - r'[l]
  {
    var a, b := Get(ans.choices, "A").value, Get(ans.choices, "B").value;
    var ra, rb := r[a], r[b];
    assert 0.0 < expected(ra, rb) && expected(ra, rb) < 1.0;
  }

  /** A rematch takes back part of a win: after X beats Y, a second answer
      in which Y beats X lowers X's rating again. */
  lemma RematchLowersWinner(axis: seq<string>, first: Answer, second: Answer, expected: (real, real) -> real)
    requires forall x, y :: 0.0 < expected(x, y) < 1.0
    requires Verdict(first, OnAxis(axis)).Some? && Verdict(second, OnAxis(axis)).Some?
    requires Verdict(second, OnAxis(axis)).value.0 == Verdict(first, OnAxis(axis)).value.1
    requires Verdict(second, OnAxis(axis)).value.1 == Verdict(first, OnAxis(axis)).value.0
    requires !SelfWin(first, OnAxis(axis))
    ensures var x := Verdict(first, OnAxis(axis)).value.0;
      Replay(InitialRatings(axis), [first, second], expected)[x] < Replay(InitialRatings(axis), [first], expected)[x]
  {
    var start := InitialRatings(axis);
    var once := Replay(start, [first], expected);
    assert [first, second][..1] == [first];
    assert [first][..0] == [];
    assert Replay(start, [], expected) == start;
    assert once == EloUpdate(start, first, expected);
    assert Replay(start, [first, second], expected) == EloUpdate(once, second, expected);
    WinnerGainsWhatLoserLoses(once, second, expected);
  }

  /** Elo depends on the order of the answers. With an expected score that
      grows strictly with the rating gap, as the logistic curve of the Elo
      formula does, one win each for X and Y leaves X higher when X's win
      comes last than when it comes first. */
  lemma OrderMatters(axis: seq<string>, x: string, y: string, ctx: map<string, string>,
                     expected: (real, real) -> real)
    requires x in axis && y in axis && x != y
    requires forall a, b, c, d :: a - b < c - d ==> expected(a, b) < expected(c, d)
    ensures var shown := map["A" := x, "B" := y];
      var xWins, yWins := Answer(ctx, shown, "A"), Answer(ctx, shown, "B");
      Replay(InitialRatings(axis), [xWins, yWins], expected)[x] <
      Replay(InitialRatings(axis), [yWins, xWins], expected)[x]
  {
    var e0 := expected(InitialRating, InitialRating);
    WinThenLoss(axis, x, y, ctx, expected);
    LossThenWin(axis, x, y, ctx, expected);
    // The gap X - Y is larger after X's win, so X is expected to score more.
    assert expected(InitialRating - KFactor * e0, InitialRating + KFactor * e0) <
           expected(InitialRating + KFactor * (1.0 - e0), InitialRating - KFactor * (1.0 - e0));
  }

  /** X's rating after X beats Y and then loses to Y, both starting at the
      initial rating. */
  lemma WinThenLoss(axis: seq<string>, x: string, y: string, ctx: map<string, string>,
                    expected: (real, real) -> real)
    requires x in axis && y in axis && x != y
    ensures var shown := map["A" := x, "B" := y];
      var e0 := expected(InitialRating, InitialRating);
      var px, py := InitialRating + KFactor * (1.0 - e0), InitialRating - KFactor * (1.0 - e0);
      Replay(InitialRatings(axis), [Answer(ctx, shown, "A"), Answer(ctx, shown, "B")], expected)[x] ==
        px - KFactor * expected(px, py)
  {
    var shown := map["A" := x, "B" := y];
    var xWins, yWins := Answer(ctx, shown, "A"), Answer(ctx, shown, "B");
    var start := InitialRatings(axis);
    var e0 := expected(InitialRating, InitialRating);
    EloUpdateScores(start, xWins, expected, InitialRating, InitialRating, e0, 1.0 - e0, 1.0, 0.0);
    var p := EloUpdate(start, xWins, expected);
    var px, py := InitialRating + KFactor * (1.0 - e0), InitialRating - KFactor * (1.0 - e0);
    assert p[x] == px && p[y] == py;
    var ep := expected(px, py);
    EloUpdateScores(p, yWins, expected, px, py, ep, 1.0 - ep, 0.0, 1.0);
    ReplayPair(start, xWins, yWins, expected);
  }

  /** X's rating after X loses to Y and then beats Y, both starting at the
      initial rating. */
  lemma LossThenWin(axis: seq<string>, x: string, y: string, ctx: map<string, string>,
                    expected: (real, real) -> real)
    requires x in axis && y in axis && x != y
    ensures var shown := map["A" := x, "B" := y];
      var e0 := expected(InitialRating, InitialRating);
      var qx, qy := InitialRating - KFactor * e0, InitialRating + KFactor * e0;
      Replay(InitialRatings(axis), [Answer(ctx, shown, "B"), Answer(ctx, shown, "A")], expected)[x] ==
        qx + KFactor * (1.0 - expected(qx, qy))
  {
    var shown := map["A" := x, "B" := y];
    var xWins, yWins := Answer(ctx, shown, "A"), Answer(ctx, shown, "B");
    var start := InitialRatings(axis);
    var e0 := expected(InitialRating, InitialRating);
    EloUpdateScores(start, yWins, expected, InitialRating, InitialRating, e0, 1.0 - e0, 0.0, 1.0);
    var q := EloUpdate(start, yWins, expected);
    var qx, qy := InitialRating - KFactor * e0, InitialRating + KFactor * e0;
    assert q[x] == qx && q[y] == qy;
    var eq := expected(qx, qy);
    EloUpdateScores(q, xWins, expected, qx, qy, eq, 1.0 - eq, 1.0, 0.0);
    ReplayPair(start, yWins, xWins, expected);
  }

  lemma ReplayPair(r: map<string, real>, first: Answer, second: Answer, expected: (real, real) -> real)
    ensures Replay(r, [first, second], expected) == EloUpdate(EloUpdate(r, first, expected), second, expected)
  {
    assert [first, second][..1] == [first];
    assert [first][..0] == [];
    assert Replay(r, [first], expected) == EloUpdate(Replay(r, [], expected), first, expected);
  }

  /** `ratings.items()`: one entry per choice, in choice order, its rating
      rounded. */
  function Standings(r: map<string, real>, axis: seq<string>, round: real -> real): (s: seq<Ranked>)
    requires forall c :: c in axis ==> c in r
    ensures |s| == |axis|
  {
    seq(|axis|, i requires 0 <= i < |axis| => Ranked(axis[i], round(r[axis[i]])))
  }

  /** `elo_ratings`: filter the answers, replay them in primary-key order
      from 1000 per choice, then rank the rounded ratings, highest first. */
  method EloRatings(q: Question, answers: seq<Answer>, query: map<string, string>,
                    expected: (real, real) -> real, round: real -> real)
    returns (ranking: seq<Ranked>)
    ensures var axis := Distinct(q.choices);
      var standings := Standings(Replay(InitialRatings(axis), Admitted(answers, Names(q.context), query), expected), axis, round);
      ranking == SortDescending(standings) &&
      Descending(ranking) &&
      multiset(ranking) == multiset(standings) &&
      forall v :: RatedAt(ranking, v) == RatedAt(standings, v)
  {
    var filtered := ApplyContextFilters(answers, Names(q.context), query);
    var choices := Distinct(q.choices);
    var ratings := ReplayAnswers(choices, filtered, expected);
    var standings := Standings(ratings, choices, round);
    ranking := SortDescending(standings);
    SortDescendingSpec(standings);
  }

  /** The rating loop of `elo_ratings`: every choice starts at 1000, then
      each answer, in order, moves the ratings of its two labels. */
  method ReplayAnswers(choices: seq<string>, answers: seq<Answer>, expected: (real, real) -> real)
    returns (ratings: map<string, real>)
    ensures ratings == Replay(InitialRatings(choices), answers, expected)
  {
    ratings := InitialRatings(choices);
    assert answers[..0] == [];
    for k := 0 to |answers|
      invariant ratings == Replay(InitialRatings(choices), answers[..k], expected)
    {
      var ans := answers[k];
      ReplayStep(InitialRatings(choices), answers, k, expected);
      var a, b := Get(ans.choices, "A"), Get(ans.choices, "B");
      if a.None? || b.None? || a.value !in ratings || b.value !in ratings {
        EloUpdateSkips(ratings, ans, expected);
        continue;
      }
      var ra, rb := ratings[a.value], ratings[b.value];
      var expectedA := expected(ra, rb);
      var expectedB := 1.0 - expectedA;
      var sa, sb;
      if ans.choice == "A" {
        sa, sb := 1.0, 0.0;
      } else if ans.choice == "B" {
        sa, sb := 0.0, 1.0;
      } else {
        EloUpdateSkips(ratings, ans, expected);
        continue;
      }
      EloUpdateScores(ratings, ans, expected, ra, rb, expectedA, expectedB, sa, sb);
      ratings := ratings[a.value := ra + KFactor * (sa - expectedA)];
      ratings := ratings[b.value := rb + KFactor * (sb - expectedB)];
    }
    assert answers[..|answers|] == answers;
  }

  lemma ReplayStep(r: map<string, real>, s: seq<Answer>, k: nat, expected: (real, real) -> real)
    requires k < |s|
    ensures Replay(r, s[..k + 1], expected) == EloUpdate(Replay(r, s[..k], expected), s[k], expected)
  {
    assert s[..k + 1][..k] == s[..k];
  }
}

=== FILE: context_filter.dfy ===
/** The context filter that opens every chart endpoint of the API: for each
    of the question's declared context keys, in key order, a non-empty
    request value of the same name narrows the answers to those whose
    context holds that value under that key. The query set becomes a
    sequence of answers and each `.filter(context__key=value)` a sequence
    filter. */
module ContextFilter {
  import opened Models

  /** Whether the answer survives the filter on one key: the request gives
      no value, or an empty one, for the key, or the answer's context holds
      exactly that value there. */
  predicate PassesKey(a: Answer, key: string, query: map<string, string>) {
    key !in query || query[key] == "" || (key in a.context && a.context[key] == query[key])
  }

  predicate PassesAll(a: Answer, keys: seq<string>, query: map<string, string>) {
    forall i :: 0 <= i < |keys| ==> PassesKey(a, keys[i], query)
  }

  /** The answers that pass the filters of all the keys, in their order. */
  function Admitted(answers: seq<Answer>, keys: seq<string>, query: map<string, string>): seq<Answer>
    decreases |answers|
  {
    if answers == [] then []
    else (if PassesAll(answers[0], keys, query) then [answers[0]] else []) + Admitted(answers[1..], keys, query)
  }

  /** `answers.filter(context__key=value)`: the answers whose context holds
      `value` under `key`, and no others. */
  function Narrow(answers: seq<Answer>, key: string, value: string): (r: seq<Answer>)
    ensures |r| <= |answers|
    ensures forall a :: a in r <==> a in answers && key in a.context && a.context[key] == value
    decreases |answers|
  {
    if answers == [] then []
    else
      var a := answers[0];
      (if key in a.context && a.context[key] == value then [a] else []) + Narrow(answers[1..], key, value)
  }

  /** The filter loop of `preference_counts`, `preference_heatmap` and
      `elo_ratings`. */
  method ApplyContextFilters(answers: seq<Answer>, keys: seq<string>, query: map<string, string>)
    returns (kept: seq<Answer>)
    ensures kept == Admitted(answers, keys, query)
  {
    kept := answers;
    AdmittedNoKeys(answers, query);
    assert keys[..0] == [];
    for i := 0 to |keys|
      invariant kept == Admitted(answers, keys[..i], query)
    {
      var key := keys[i];
      AdmittedOneMoreKey(answers, keys, i, query);
      if key in query && query[key] != "" {
        kept := Narrow(kept, key, query[key]);
      }
    }
    assert keys[..|keys|] == keys;
  }

  lemma {:induction false} AdmittedNoKeys(answers: seq<Answer>, query: map<string, string>)
    ensures Admitted(answers, [], query) == answers
    decreases |answers|
  {
    if answers != [] {
      AdmittedNoKeys(answers[1..], query);
      assert [answers[0]] + answers[1..] == answers;
    }
  }

  /** Adding the filter of one more key narrows the admitted answers by that
      key's value when the request gives one, and changes nothing otherwise. */
  lemma {:induction false} AdmittedOneMoreKey(answers: seq<Answer>, keys: seq<string>, i: nat, query: map<string, string>)
    requires i < |keys|
    ensures var key := keys[i];
      Admitted(answers, keys[..i + 1], query) ==
        if key in query && query[key] != "" then Narrow(Admitted(answers, keys[..i], query), key, query[key])
        else Admitted(answers, keys[..i], query)
    decreases |answers|
  {
    if answers != [] {
      AdmittedOneMoreKey(answers[1..], keys, i, query);
      var a, key := answers[0], keys[i];
      PassesOneMoreKey(a, keys, i, query);
      var prev, rest := Admitted(answers, keys[..i], query), Admitted(answers[1..], keys[..i], query);
      assert prev == (if PassesAll(a, keys[..i], query) then [a] else []) + rest;
      if key in query && query[key] != "" {
        if PassesAll(a, keys[..i], query) {
          assert prev != [] && prev[0] == a && prev[1..] == rest;
          NarrowHead(prev, key, query[key]);
        } else {
          assert prev == rest;
        }
      } else {
        assert PassesKey(a, key, query);
      }
    }
  }

  lemma PassesOneMoreKey(a: Answer, keys: seq<string>, i: nat, query: map<string, string>)
    requires i < |keys|
    ensures PassesAll(a, keys[..i + 1], query) <==> PassesAll(a, keys[..i], query) && PassesKey(a, keys[i], query)
  {
    assert forall k :: 0 <= k < i ==> keys[..i + 1][k] == keys[..i][k];
    assert keys[..i + 1][i] == keys[i];
  }

  lemma NarrowHead(s: seq<Answer>, key: string, value: string)
    requires s != []
    ensures Narrow(s, key, value) ==
      (if key in s[0].context && s[0].context[key] == value then [s[0]] else []) + Narrow(s[1..], key, value)
  {
  }

  /** Filtering keeps answers in their order and never adds one: the result
      is a subsequence of the input, holding exactly the answers that pass. */
  lemma {:induction false} AdmittedIsSubsequence(answers: seq<Answer>, keys: seq<string>, query: map<string, string>)
    ensures |Admitted(answers, keys, query)| <= |answers|
    ensures multiset(Admitted(answers, keys, query)) <= multiset(answers)
    ensures forall a :: a in Admitted(answers, keys, query) <==> a in answers && PassesAll(a, keys, query)
    decreases |answers|
  {
    if answers != [] {
      AdmittedIsSubsequence(answers[1..], keys, query);
      assert answers == [answers[0]] + answers[1..];
    }
  }

  /** A request that gives no non-empty value for any declared key leaves
      the answers as they are. */
  lemma {:induction false} NoActiveFilterKeepsAll(answers: seq<Answer>, keys: seq<string>, query: map<string, string>)
    requires forall i :: 0 <= i < |keys| ==> keys[i] !in query || query[keys[i]] == ""
    ensures Admitted(answers, keys, query) == answers
    decreases |answers|
  {
    if answers != [] {
      NoActiveFilterKeepsAll(answers[1..], keys, query);
      assert PassesAll(answers[0], keys, query);
      assert [answers[0]] + answers[1..] == answers;
    }
  }

  /** Only the question's declared context keys filter: a request parameter
      under any other name has no effect. */
  lemma {:induction false} UndeclaredKeyIgnored(answers: seq<Answer>, keys: seq<string>, query: map<string, string>, extra: string, value: string)
    requires extra !in keys
    ensures Admitted(answers, keys, query[extra := value]) == Admitted(answers, keys, query)
    decreases |answers|
  {
    if answers != [] {
      UndeclaredKeyIgnored(answers[1..], keys, query, extra, value);
      var a := answers[0];
      assert PassesAll(a, keys, query[extra := value]) <==> PassesAll(a, keys, query) by {
        assert forall i :: 0 <= i < |keys| ==> keys[i] != extra;
      }
    }
  }
}

=== FILE: expansion.dfy ===
/** Question expansion (`Question.render_all_questions`): the cartesian
    product of a question's context dimensions, one concrete assignment per
    combination, each rendered through the template engine. The template
    engine is not modelled; it is a function the caller supplies. */
module Expansion {
  import opened Models

  /** `dict(zip(keys, combination))`: one concrete value per dimension. */
  type Assignment = map<string, string>

  /** A scalar dimension value counts as a one-element list. */
  function ValuesOf(v: DimensionValue): seq<string> {
    match v
    case Single(x) => [x]
    case Listed(xs) => xs
  }

  /** The value sequences of the dimensions, in key order. */
  function ValueSequences(ctx: seq<Dimension>): seq<seq<string>> {
    seq(|ctx|, i requires 0 <= i < |ctx| => ValuesOf(ctx[i].value))
  }

  /** `[x] + t` for every `x` of `heads` in order and, for each, every `t` of
      `tails` in order. */
  function Prefixed(heads: seq<string>, tails: seq<seq<string>>): seq<seq<string>>
    decreases |heads|
  {
    if heads == [] then []
    else seq(|tails|, j requires 0 <= j < |tails| => [heads[0]] + tails[j]) + Prefixed(heads[1..], tails)
  }

  /** `itertools.product(*vs)`: every tuple picking one element of each
      sequence, the first sequence varying slowest. */
  function Product(vs: seq<seq<string>>): (r: seq<seq<string>>)
    ensures |r| == LengthProduct(vs)
    decreases |vs|
  {
    if vs == [] then [[]]
    else
      PrefixedLength(vs[0], Product(vs[1..]));
      Prefixed(vs[0], Product(vs[1..]))
  }

  /** The product of the lengths of the sequences. */
  function LengthProduct(vs: seq<seq<string>>): nat
    decreases |vs|
  {
    if vs == [] then 1 else |vs[0]| * LengthProduct(vs[1..])
  }

  /** `dict(zip(keys, values))`: with as many values as keys, exactly the
      keys are bound. */
  function Bind(keys: seq<string>, values: seq<string>): (m: Assignment)
    ensures |keys| == |values| ==> m.Keys == set k | k in keys
    decreases |keys|
  {
    if keys == [] || values == [] then map[]
    else
      assert (set k | k in keys) == (set k | k in keys[1..]) + {keys[0]};
      Bind(keys[1..], values[1..])[keys[0] := values[0]]
  }

  /** The assignments of a context, one per combination, in product order. */
  function Assignments(ctx: seq<Dimension>): seq<Assignment> {
    var combos := Product(ValueSequences(ctx));
    seq(|combos|, k requires 0 <= k < |combos| => Bind(Names(ctx), combos[k]))
  }

  /** `Question.render_all_questions`: an empty context gives the raw
      template with an empty assignment; otherwise every combination of the
      dimension values is bound to the keys and rendered. */
  method RenderAllQuestions(q: Question, render: (string, Assignment) -> string)
    returns (results: seq<(string, Assignment)>)
    ensures q.context == [] ==> results == [(q.template, map[])]
    ensures q.context != [] ==> |results| == |Assignments(q.context)|
    ensures q.context != [] ==> forall k :: 0 <= k < |results| ==>
      results[k] == (render(q.template, Assignments(q.context)[k]), Assignments(q.context)[k])
  {
    if q.context == [] {
      return [(q.template, map[])];
    }
    var keys := Names(q.context);
    var combos := Product(ValueSequences(q.context));
    results := [];
    for k := 0 to |combos|
      invariant |results| == k
      invariant forall m :: 0 <= m < k ==>
        results[m] == (render(q.template, Assignments(q.context)[m]), Assignments(q.context)[m])
    {
      var bound := Bind(keys, combos[k]);
      results := results + [(render(q.template, bound), bound)];
    }
  }

  lemma {:induction false} PrefixedLength(heads: seq<string>, tails: seq<seq<string>>)
    ensures |Prefixed(heads, tails)| == |heads| * |tails|
    decreases |heads|
  {
    if heads != [] {
      PrefixedLength(heads[1..], tails);
      assert |heads| * |tails| == |tails| + (|heads| - 1) * |tails|;
    }
  }

  /** Block `i` of `Prefixed(heads, tails)` is `tails` prefixed by `heads[i]`. */
  lemma {:induction false} PrefixedAt(heads: seq<string>, tails: seq<seq<string>>, i: nat, j: nat)
    requires i < |heads| && j < |tails|
    ensures i * |tails| + j < |Prefixed(heads, tails)|
    ensures Prefixed(heads, tails)[i * |tails| + j] == [heads[i]] + tails[j]
    decreases |heads|
  {
    var block := seq(|tails|, j requires 0 <= j < |tails| => [heads[0]] + tails[j]);
    assert Prefixed(heads, tails) == block + Prefixed(heads[1..], tails);
    if i > 0 {
      PrefixedAt(heads[1..], tails, i - 1, j);
      assert i * |tails| == (i - 1) * |tails| + |tails|;
      assert heads[1..][i - 1] == heads[i];
    }
  }

  lemma {:induction false} PrefixedMember(heads: seq<string>, tails: seq<seq<string>>, c: seq<string>)
    ensures c in Prefixed(heads, tails) <==> |c| > 0 && c[0] in heads && c[1..] in tails
    decreases |heads|
  {
    if heads != [] {
      PrefixedMember(heads[1..], tails, c);
      var block := seq(|tails|, j requires 0 <= j < |tails| => [heads[0]] + tails[j]);
      assert Prefixed(heads, tails) == block + Prefixed(heads[1..], tails);
      if |c| > 0 && c[0] == heads[0] && c[1..] in tails {
        var j :| 0 <= j < |tails| && tails[j] == c[1..];
        assert block[j] == c;
      }
      if c in block {
        var j :| 0 <= j < |block| && block[j] == c;
        assert c[1..] == tails[j];
      }
    }
  }

  /** A tuple is in the product exactly when it picks one element of every
      sequence, in order. */
  lemma {:induction false} ProductMember(vs: seq<seq<string>>, c: seq<string>)
    ensures c in Product(vs) <==> |c| == |vs| && forall i :: 0 <= i < |vs| ==> c[i] in vs[i]
    decreases |vs|
  {
    if vs != [] {
      PrefixedMember(vs[0], Product(vs[1..]), c);
      if |c| > 0 {
        ProductMember(vs[1..], c[1..]);
        if |c| == |vs| && forall i :: 0 <= i < |vs| ==> c[i] in vs[i] {
          assert forall i :: 0 <= i < |vs| - 1 ==> c[1..][i] == c[i + 1];
        }
        if c[0] in vs[0] && c[1..] in Product(vs[1..]) {
          forall i | 0 <= i < |vs| ensures c[i] in vs[i] {
            if i > 0 {
              assert c[i] == c[1..][i - 1];
            }
          }
        }
      }
    }
  }

  lemma {:induction false} BindAt(keys: seq<string>, values: seq<string>, i: nat)
    requires |keys| == |values| && i < |keys|
    requires forall a, b :: 0 <= a < b < |keys| ==> keys[a] != keys[b]
    ensures keys[i] in Bind(keys, values) && Bind(keys, values)[keys[i]] == values[i]
    decreases |keys|
  {
    if i > 0 {
      BindAt(keys[1..], values[1..], i - 1);
      assert keys[1..][i - 1] == keys[i] != keys[0];
    }
  }

  /** An assignment binding every key to the given values, in key order. */
  lemma {:induction false} BindDetermined(keys: seq<string>, values: seq<string>, m: Assignment)
    requires |keys| == |values|
    requires forall a, b :: 0 <= a < b < |keys| ==> keys[a] != keys[b]
    requires m.Keys == set k | k in keys
    requires forall i :: 0 <= i < |keys| ==> m[keys[i]] == values[i]
    ensures Bind(keys, values) == m
  {
    forall k | k in m ensures Bind(keys, values)[k] == m[k] {
      var i :| 0 <= i < |keys| && keys[i] == k;
      BindAt(keys, values, i);
    }
  }

  /** The number of assignments is the product of the numbers of values of
      the dimensions (a scalar counting as one): one for an empty context,
      none as soon as one dimension lists no values. */
  lemma AssignmentCount(ctx: seq<Dimension>)
    ensures |Assignments(ctx)| == LengthProduct(ValueSequences(ctx))
    ensures ctx == [] ==> Assignments(ctx) == [map[]]
    ensures (exists i :: 0 <= i < |ctx| && ValuesOf(ctx[i].value) == []) ==> Assignments(ctx) == []
  {
    var vs := ValueSequences(ctx);
    if exists i :: 0 <= i < |ctx| && ValuesOf(ctx[i].value) == [] {
      var i :| 0 <= i < |ctx| && ValuesOf(ctx[i].value) == [];
      LengthProductZero(vs, i);
    }
  }

  /** One empty sequence makes the product of the lengths zero. */
  lemma {:induction false} LengthProductZero(vs: seq<seq<string>>, i: nat)
    requires i < |vs| && vs[i] == []
    ensures LengthProduct(vs) == 0
    decreases i
  {
    if i > 0 {
      LengthProductZero(vs[1..], i - 1);
    }
  }

  lemma NamesAreKeys(ctx: seq<Dimension>)
    ensures (set k | k in Names(ctx)) == (set d | d in ctx :: d.name)
  {
    forall d | d in ctx ensures d.name in Names(ctx) {
      var i :| 0 <= i < |ctx| && ctx[i] == d;
      assert Names(ctx)[i] == d.name;
    }
  }

  /** Every assignment binds exactly the context's keys, each to one of the
      values of its dimension. */
  lemma AssignmentsAreBindings(q: Question, k: nat)
    requires q.WellFormed() && k < |Assignments(q.context)|
    ensures Assignments(q.context)[k].Keys == (set d | d in q.context :: d.name)
    ensures forall i :: 0 <= i < |q.context| ==>
      Assignments(q.context)[k][q.context[i].name] in ValuesOf(q.context[i].value)
  {
    var ctx := q.context;
    var keys, vs := Names(ctx), ValueSequences(ctx);
    var c := Product(vs)[k];
    assert c in Product(vs);
    ProductMember(vs, c);
    NamesAreKeys(ctx);
    forall i | 0 <= i < |ctx| ensures Bind(keys, c)[ctx[i].name] in ValuesOf(ctx[i].value) {
      BindAt(keys, c, i);
      assert c[i] in vs[i];
    }
  }

  /** Conversely, every binding of the context's keys to values of their
      dimensions is among the assignments. */
  lemma AllBindingsAreAssignments(q: Question, m: Assignment)
    requires q.WellFormed()
    requires m.Keys == (set d | d in q.context :: d.name)
    requires forall i :: 0 <= i < |q.context| ==> m[q.context[i].name] in ValuesOf(q.context[i].value)
    ensures m in Assignments(q.context)
  {
    var ctx := q.context;
    var keys := Names(ctx);
    NamesAreKeys(ctx);
    assert forall a, b :: 0 <= a < b < |keys| ==> keys[a] != keys[b];
    var c := PickedTuple(ctx, m);
    BindDetermined(keys, c, m);
    var combos := Product(ValueSequences(ctx));
    var k :| 0 <= k < |combos| && combos[k] == c;
    assert |Assignments(ctx)| == |combos|;
    assert Assignments(ctx)[k] == Bind(keys, c);
  }

  /** The values a binding picks, in key order, form a tuple of the product. */
  lemma PickedTuple(ctx: seq<Dimension>, m: Assignment) returns (c: seq<string>)
    requires forall i :: 0 <= i < |ctx| ==> ctx[i].name in m && m[ctx[i].name] in ValuesOf(ctx[i].value)
    ensures c in Product(ValueSequences(ctx))
    ensures |c| == |ctx| && forall i :: 0 <= i < |ctx| ==> m[Names(ctx)[i]] == c[i]
  {
    var vs := ValueSequences(ctx);
    c := seq(|ctx|, i requires 0 <= i < |ctx| => m[ctx[i].name]);
    assert forall i :: 0 <= i < |vs| ==> c[i] in vs[i];
    ProductMember(vs, c);
  }

  /** Assignments come in lexicographic product order over key insertion
      order: the first key's values vary slowest, each block of assignments
      for the remaining keys repeated once per value of the first key. */
  lemma AssignmentOrder(ctx: seq<Dimension>, i: nat, j: nat)
    requires ctx != [] && i < |ValuesOf(ctx[0].value)| && j < |Assignments(ctx[1..])|
    ensures i * |Assignments(ctx[1..])| + j < |Assignments(ctx)|
    ensures Assignments(ctx)[i * |Assignments(ctx[1..])| + j] ==
      Assignments(ctx[1..])[j][ctx[0].name := ValuesOf(ctx[0].value)[i]]
  {
    var vs := ValueSequences(ctx);
    assert vs[0] == ValuesOf(ctx[0].value);
    assert vs[1..] == ValueSequences(ctx[1..]);
    assert Names(ctx)[1..] == Names(ctx[1..]);
    var tails := Product(vs[1..]);
    PrefixedAt(vs[0], tails, i, j);
  }

  /** The example context `{"gender": ["man", "woman"]}` gives the
      assignment with `man` first and the one with `woman` second. */
  lemma GenderExample()
    ensures Assignments([Dimension("gender", Listed(["man", "woman"]))]) ==
      [map["gender" := "man"], map["gender" := "woman"]]
  {
    var ctx := [Dimension("gender", Listed(["man", "woman"]))];
    var vs := ValueSequences(ctx);
    assert vs == [["man", "woman"]];
    assert vs[1..] == [];
    PrefixedLength(vs[0], [[]]);
    PrefixedAt(vs[0], [[]], 0, 0);
    PrefixedAt(vs[0], [[]], 1, 0);
    assert Product(vs[1..]) == [[]];
    var p := Prefixed(vs[0], [[]]);
    assert Product(vs) == p;
    assert p[0] == ["man"] + [] == ["man"];
    assert p[1] == ["woman"] + [] == ["woman"];
    assert p == [["man"], ["woman"]];
    assert Names(ctx) == ["gender"];
    assert Bind(["gender"], ["man"]) == map["gender" := "man"] by {
      assert ["gender"][1..] == [];
    }
    assert Bind(["gender"], ["woman"]) == map["gender" := "woman"] by {
      assert ["gender"][1..] == [];
    }
  }
}

=== FILE: forms.dfy ===
/** The question form's conversions between the stored JSON fields and the
    text areas an editor types into: the choice list is shown one label per
    line and read back by splitting the text into lines, stripping each and
    dropping the blank ones; an empty context box stands for `{}`. Line
    splitting and stripping follow Python's `str.splitlines()` and
    `str.strip()` on code points. */
module Forms {
  import opened Models

  // ---------------------------------------------------------------------
  // Python's character classes
  // ---------------------------------------------------------------------

  /** The characters `str.isspace()` accepts, which `str.strip()` removes. */
  predicate IsSpace(c: char) {
    var n := c as int;
    (0x09 <= n <= 0x0D) || (0x1C <= n <= 0x20) || n == 0x85 || n == 0xA0 || n == 0x1680 ||
    (0x2000 <= n <= 0x200A) || n == 0x2028 || n == 0x2029 || n == 0x202F || n == 0x205F || n == 0x3000
  }

  /** The line boundaries of `str.splitlines()`; `\r\n` is one boundary made
      of two of them. */
  predicate IsLineBreak(c: char) {
    var n := c as int;
    (0x0A <= n <= 0x0D) || (0x1C <= n <= 0x1E) || n == 0x85 || n == 0x2028 || n == 0x2029
  }

  predicate BreakFree(s: string) {
    forall k :: 0 <= k < |s| ==> !IsLineBreak(s[k])
  }

  // ---------------------------------------------------------------------
  // str.splitlines()
  // ---------------------------------------------------------------------

  /** The position of the first line boundary, or the length when none. */
  function FirstBreak(s: string): (i: nat)
    ensures i <= |s|
    ensures forall k :: 0 <= k < i ==> !IsLineBreak(s[k])
    ensures i < |s| ==> IsLineBreak(s[i])
    decreases |s|
  {
    if s == [] || IsLineBreak(s[0]) then 0 else 1 + FirstBreak(s[1..])
  }

  /** The length of the boundary at `i`: two for `\r\n`, one otherwise. */
  function BreakWidth(s: string, i: nat): (w: nat)
    requires i < |s|
    ensures 1 <= w <= 2 && i + w <= |s|
  {
    if s[i] == '\r' && i + 1 < |s| && s[i + 1] == '\n' then 2 else 1
  }

  /** `s.splitlines()`: the pieces between boundaries, with `\r\n` taken as
      one boundary and no empty piece after a final boundary. */
  function SplitLines(s: string): (pieces: seq<string>)
    ensures pieces == [] <==> s == []
    ensures |pieces| <= |s|
    ensures forall k :: 0 <= k < |pieces| ==> BreakFree(pieces[k])
    decreases |s|
  {
    if s == [] then []
    else
      var i := FirstBreak(s);
      if i == |s| then
        assert BreakFree(s);
        [s]
      else
        var rest := SplitLines(s[i + BreakWidth(s, i)..]);
        FirstPieceBreakFree(s);
        PrependBreakFree(s[..i], rest);
        Prepend(s[..i], rest)
  }

  /** The first piece of a split followed by the pieces of the rest. */
  function Prepend(piece: string, pieces: seq<string>): seq<string> {
    [piece] + pieces
  }

  /** The text before the first boundary has none. */
  lemma FirstPieceBreakFree(s: string)
    ensures BreakFree(s[..FirstBreak(s)])
  {
    var piece := s[..FirstBreak(s)];
    forall k | 0 <= k < |piece| ensures !IsLineBreak(piece[k]) {
      assert piece[k] == s[k];
    }
  }

  lemma PrependBreakFree(piece: string, pieces: seq<string>)
    requires BreakFree(piece)
    requires forall k :: 0 <= k < |pieces| ==> BreakFree(pieces[k])
    ensures forall k :: 0 <= k < |Prepend(piece, pieces)| ==> BreakFree(Prepend(piece, pieces)[k])
  {
    forall k | 0 < k < |Prepend(piece, pieces)| ensures BreakFree(Prepend(piece, pieces)[k]) {
      assert Prepend(piece, pieces)[k] == pieces[k - 1];
    }
  }

  // ---------------------------------------------------------------------
  // str.strip()
  // ---------------------------------------------------------------------

  function TrimStart(s: string): string
    decreases |s|
  {
    if s != [] && IsSpace(s[0]) then TrimStart(s[1..]) else s
  }

  function TrimEnd(s: string): string
    decreases |s|
  {
    if s != [] && IsSpace(s[|s| - 1]) then TrimEnd(s[..|s| - 1]) else s
  }

  /** `s.strip()`: empty, or without white space at either end. */
  function Strip(s: string): (r: string)
    ensures r == [] || Stripped(r)
    ensures |r| <= |s|
  {
    TrimStartSpec(s);
    TrimEndSpec(TrimStart(s));
    var r := TrimEnd(TrimStart(s));
    assert r != [] ==> r[0] == TrimStart(s)[0];
    r
  }

  /** A label as the form produces it: not empty, and with no white space at
      either end. */
  predicate Stripped(s: string) {
    s != [] && !IsSpace(s[0]) && !IsSpace(s[|s| - 1])
  }

  /** Trimming the front keeps a suffix, and what it drops is white space. */
  lemma {:induction false} TrimStartSpec(s: string)
    ensures TrimStart(s) == [] || !IsSpace(TrimStart(s)[0])
    ensures |TrimStart(s)| <= |s| && TrimStart(s) == s[|s| - |TrimStart(s)|..]
    ensures forall k :: 0 <= k < |s| - |TrimStart(s)| ==> IsSpace(s[k])
    decreases |s|
  {
    if s != [] && IsSpace(s[0]) {
      TrimStartSpec(s[1..]);
      forall k | 1 <= k < |s| - |TrimStart(s)| ensures IsSpace(s[k]) {
        assert s[k] == s[1..][k - 1];
      }
    }
  }

  /** Trimming the back keeps a prefix, and what it drops is white space. */
  lemma {:induction false} TrimEndSpec(s: string)
    ensures TrimEnd(s) == [] || !IsSpace(TrimEnd(s)[|TrimEnd(s)| - 1])
    ensures |TrimEnd(s)| <= |s| && TrimEnd(s) == s[..|TrimEnd(s)|]
    ensures forall k :: |TrimEnd(s)| <= k < |s| ==> IsSpace(s[k])
    decreases |s|
  {
    if s != [] && IsSpace(s[|s| - 1]) {
      TrimEndSpec(s[..|s| - 1]);
      forall k | |TrimEnd(s)| <= k < |s| - 1 ensures IsSpace(s[k]) {
        assert s[k] == s[..|s| - 1][k];
      }
    }
  }

  /** A stripped string is a piece of the original: it starts where the
      leading white space ends. */
  lemma StripIsPiece(s: string)
    ensures |Strip(s)| <= |TrimStart(s)| <= |s|
    ensures Strip(s) == s[|s| - |TrimStart(s)|..][..|Strip(s)|]
  {
    TrimStartSpec(s);
    TrimEndSpec(TrimStart(s));
  }

  /** `r` is `s` with a white-space prefix of length `i` and a white-space
      suffix cut off. */
  predicate CutAt(s: string, r: string, i: int) {
    0 <= i <= |s| - |r| && r == s[i..i + |r|] &&
    (forall k :: 0 <= k < i ==> IsSpace(s[k])) && (forall k :: i + |r| <= k < |s| ==> IsSpace(s[k]))
  }

  /** `strip()` removes white space from both ends and nothing else: the
      result is the piece of `s` left once a white-space prefix and a
      white-space suffix are cut off, so it holds no new characters, and it
      is empty exactly when `s` is all white space. */
  lemma StripSpec(s: string)
    ensures forall k :: 0 <= k < |Strip(s)| ==> Strip(s)[k] in s
    ensures exists i :: CutAt(s, Strip(s), i)
    ensures Strip(s) == [] <==> forall k :: 0 <= k < |s| ==> IsSpace(s[k])
  {
    StripTrimmed(s);
    var t := TrimStart(s);
    var r := Strip(s);
    StripIsPiece(s);
    var d := |s| - |t|;
    forall k | 0 <= k < |r|
      ensures r[k] in s
    {
      assert r[k] == s[d + k];
    }
    assert CutAt(s, r, d);
    if r == [] {
      forall k | 0 <= k < |s| ensures IsSpace(s[k]) {
        if k >= d {
          assert d + |r| <= k;
        }
      }
    } else {
      assert r[0] == s[d];
    }
  }

  /** The two cuts of `strip()` drop only white space: the characters
      before the offset where the result starts, and those after it ends. */
  lemma StripTrimmed(s: string)
    ensures CutAt(s, Strip(s), |s| - |TrimStart(s)|)
  {
    var t := TrimStart(s);
    var d := |s| - |t|;
    TrimStartSpec(s);
    TrimEndSpec(t);
    forall k | d + |Strip(s)| <= k < |s| ensures IsSpace(s[k]) {
      assert s[k] == t[k - d];
    }
  }

  /** `" Turkey ".strip()` is `"Turkey"`: the label survives, only the
      spaces around it go. */
  lemma StripExample()
    ensures Strip(" Turkey ") == "Turkey"
  {
    assert TrimStart(" Turkey ") == TrimStart("Turkey ") == "Turkey ";
    assert TrimEnd("Turkey ") == TrimEnd("Turkey") == "Turkey";
  }

  /** Stripping leaves a label that is already stripped as it is. */
  lemma StripStripped(s: string)
    requires Stripped(s)
    ensures Strip(s) == s
  {
  }

  // ---------------------------------------------------------------------
  // "\n".join(...)
  // ---------------------------------------------------------------------

  /** `"\n".join(labels)`: the text starts with the first label and ends
      with the last. */
  function Join(labels: seq<string>): (text: string)
    ensures labels == [] ==> text == ""
    ensures labels != [] ==> labels[0] <= text
    ensures labels != [] ==>
      |labels[|labels| - 1]| <= |text| && text[|text| - |labels[|labels| - 1]|..] == labels[|labels| - 1]
    decreases |labels|
  {
    if labels == [] then ""
    else if |labels| == 1 then labels[0]
    else
      var rest := Join(labels[1..]);
      var text := labels[0] + "\n" + rest;
      assert text[..|labels[0]|] == labels[0];
      assert text[|text| - |rest|..] == rest;
      text
  }

  lemma {:induction false} FirstBreakAfter(x: string, t: string)
    requires BreakFree(x)
    ensures FirstBreak(x + t) == |x| + FirstBreak(t)
    decreases |x|
  {
    if x != [] {
      assert (x + t)[0] == x[0] && (x + t)[1..] == x[1..] + t;
      FirstBreakAfter(x[1..], t);
    } else {
      assert x + t == t;
    }
  }

  /** A break-free line followed by `\n` is the first piece of the split. */
  lemma SplitFirstLine(x: string, rest: string)
    requires BreakFree(x)
    ensures SplitLines(x + "\n" + rest) == [x] + SplitLines(rest)
  {
    var s := x + "\n" + rest;
    FirstBreakAfter(x, "\n" + rest);
    assert s == x + ("\n" + rest);
    assert FirstBreak(s) == |x| && s[|x|] == '\n';
    assert BreakWidth(s, |x|) == 1;
    assert s[..|x|] == x && s[|x| + 1..] == rest;
  }

  /** A break-free line on its own is the whole split. */
  lemma SplitOneLine(x: string)
    requires x != [] && BreakFree(x)
    ensures SplitLines(x) == [x]
  {
    FirstBreakAfter(x, "");
    assert x + "" == x;
  }

  /** Splitting the join of non-empty, break-free labels gives the labels
      back. */
  lemma {:induction false} SplitJoin(labels: seq<string>)
    requires forall k :: 0 <= k < |labels| ==> labels[k] != [] && BreakFree(labels[k])
    ensures SplitLines(Join(labels)) == labels
    decreases |labels|
  {
    if |labels| == 1 {
      SplitOneLine(labels[0]);
    } else if |labels| > 1 {
      SplitJoin(labels[1..]);
      SplitFirstLine(labels[0], Join(labels[1..]));
      assert labels == [labels[0]] + labels[1..];
    }
  }

  // ---------------------------------------------------------------------
  // QuestionForm.clean_choices
  // ---------------------------------------------------------------------

  /** What the form holds for a field: nothing, text from the text area, a
      list, or a tuple as a caller can pass one. A tuple comes with `shown`,
      the text `str()` gives for it, which the model takes as given. */
  datatype FieldValue = Absent | Text(text: string) | Items(items: seq<string>)
                      | Tuple(items: seq<string>, shown: string)

  /** `[line.strip() for line in lines if line.strip()]`: never more labels
      than lines, each one stripped and not empty. */
  function Keep(lines: seq<string>): (kept: seq<string>)
    ensures |kept| <= |lines|
    ensures forall k :: 0 <= k < |kept| ==> Stripped(kept[k])
    decreases |lines|
  {
    if lines == [] then []
    else (if Strip(lines[0]) != "" then [Strip(lines[0])] else []) + Keep(lines[1..])
  }

  /** The positions of the lines that are not blank, in order. */
  function NonBlank(lines: seq<string>, from: nat): seq<nat>
    requires from <= |lines|
    decreases |lines| - from
  {
    if from == |lines| then []
    else (if Strip(lines[from]) != "" then [from] else []) + NonBlank(lines, from + 1)
  }

  /** Positions all in `lo..hi` and strictly increasing. */
  predicate IncreasingWithin(idx: seq<nat>, lo: nat, hi: nat) {
    (forall k :: 0 <= k < |idx| ==> lo <= idx[k] < hi) &&
    (forall k, m :: 0 <= k < m < |idx| ==> idx[k] < idx[m])
  }

  lemma PrependIncreasing(x: nat, idx: seq<nat>, hi: nat)
    requires x < hi && IncreasingWithin(idx, x + 1, hi)
    ensures IncreasingWithin([x] + idx, x, hi)
  {
    var all := [x] + idx;
    forall k | 0 < k < |all| ensures all[k] == idx[k - 1] {
    }
  }

  /** The non-blank positions lie in range and increase. */
  lemma {:induction false} NonBlankIncreasing(lines: seq<string>, from: nat)
    requires from <= |lines|
    ensures IncreasingWithin(NonBlank(lines, from), from, |lines|)
    decreases |lines| - from
  {
    if from < |lines| {
      NonBlankIncreasing(lines, from + 1);
      var rest := NonBlank(lines, from + 1);
      if Strip(lines[from]) != "" {
        assert NonBlank(lines, from) == [from] + rest;
        PrependIncreasing(from, rest, |lines|);
      } else {
        assert NonBlank(lines, from) == rest;
      }
    }
  }

  /** The non-blank positions are exactly the non-blank lines from `from`
      on. */
  lemma {:induction false} NonBlankExactly(lines: seq<string>, from: nat, i: nat)
    requires from <= i < |lines|
    ensures i in NonBlank(lines, from) <==> Strip(lines[i]) != ""
    decreases |lines| - from
  {
    var rest := NonBlank(lines, from + 1);
    var head := if Strip(lines[from]) != "" then [from] else [];
    assert NonBlank(lines, from) == head + rest;
    if i == from {
      NonBlankIncreasing(lines, from + 1);
      BelowIsAbsent(rest, from + 1, |lines|, from);
    } else {
      NonBlankExactly(lines, from + 1, i);
    }
    MemberOfAppend(head, rest, i);
  }

  lemma BelowIsAbsent(idx: seq<nat>, lo: nat, hi: nat, x: nat)
    requires IncreasingWithin(idx, lo, hi) && x < lo
    ensures x !in idx
  {
  }

  lemma MemberOfAppend(a: seq<nat>, b: seq<nat>, x: nat)
    ensures x in a + b <==> x in a || x in b
  {
  }

  /** The non-blank positions lie in range and increase, and they are
      exactly the non-blank lines from `from` on. */
  lemma NonBlankSpec(lines: seq<string>, from: nat)
    requires from <= |lines|
    ensures var idx := NonBlank(lines, from);
      (forall k :: 0 <= k < |idx| ==> from <= idx[k] < |lines|) &&
      (forall k, m :: 0 <= k < m < |idx| ==> idx[k] < idx[m]) &&
      (forall i :: from <= i < |lines| ==> (i in idx <==> Strip(lines[i]) != ""))
  {
    NonBlankIncreasing(lines, from);
    forall i | from <= i < |lines| ensures i in NonBlank(lines, from) <==> Strip(lines[i]) != "" {
      NonBlankExactly(lines, from, i);
    }
  }

  /** The k-th kept label is the stripped k-th non-blank line. */
  lemma {:induction false} KeepAtNonBlank(lines: seq<string>, from: nat)
    requires from <= |lines|
    ensures var idx := NonBlank(lines, from);
      |Keep(lines[from..])| == |idx| &&
      (forall k :: 0 <= k < |idx| ==> 0 <= idx[k] < |lines| && Keep(lines[from..])[k] == Strip(lines[idx[k]]))
    decreases |lines| - from
  {
    if from < |lines| {
      KeepAtNonBlank(lines, from + 1);
      assert lines[from..][0] == lines[from] && lines[from..][1..] == lines[from + 1..];
    }
  }

  /** Cleaning keeps one stripped label per non-blank line, in line order:
      the kept positions increase, every non-blank line is among them and
      no blank one is. */
  lemma KeepIsNonBlankLines(lines: seq<string>, from: nat)
    requires from <= |lines|
    ensures var idx := NonBlank(lines, from);
      |Keep(lines[from..])| == |idx| &&
      (forall k :: 0 <= k < |idx| ==> from <= idx[k] < |lines| && Keep(lines[from..])[k] == Strip(lines[idx[k]])) &&
      (forall k, m :: 0 <= k < m < |idx| ==> idx[k] < idx[m]) &&
      (forall i :: from <= i < |lines| ==> (i in idx <==> Strip(lines[i]) != ""))
  {
    NonBlankSpec(lines, from);
    KeepAtNonBlank(lines, from);
  }

  /** Every kept label is as free of line boundaries as the lines it came
      from. */
  lemma {:induction false} KeepSpec(lines: seq<string>)
    requires forall k :: 0 <= k < |lines| ==> BreakFree(lines[k])
    ensures forall k :: 0 <= k < |Keep(lines)| ==> BreakFree(Keep(lines)[k])
    decreases |lines|
  {
    if lines != [] {
      KeepSpec(lines[1..]);
      StripSpec(lines[0]);
    }
  }

  /** Keeping a list of stripped labels changes nothing. */
  lemma {:induction false} KeepStripped(labels: seq<string>)
    requires forall k :: 0 <= k < |labels| ==> Stripped(labels[k])
    ensures Keep(labels) == labels
    decreases |labels|
  {
    if labels != [] {
      StripStripped(labels[0]);
      KeepStripped(labels[1..]);
    }
  }

  /** `clean_choices`: nothing or empty input gives `[]`; a list is taken as
      it is; text, and any other value through its `str()` text, gives its
      non-blank lines, stripped. */
  function CleanChoices(data: FieldValue): (labels: seq<string>)
    ensures data.Absent? || data == Text("") || (data.Tuple? && data.items == []) ==> labels == []
    ensures data.Items? ==> labels == data.items
    ensures data.Tuple? && data.items != [] ==> labels == Keep(SplitLines(data.shown))
    ensures data.Text? ==> |labels| <= |SplitLines(data.text)|
    ensures data.Text? ==> forall k :: 0 <= k < |labels| ==> Stripped(labels[k]) && BreakFree(labels[k])
  {
    match data
    case Absent => []
    case Text(t) =>
      if t == "" then []
      else
        KeepSpec(SplitLines(t));
        Keep(SplitLines(t))
    case Items(ls) => ls
    case Tuple(ls, shown) => if ls == [] then [] else Keep(SplitLines(shown))
  }

  /** Only a list passes through: a tuple is cleaned as the text `str()`
      gives for it, so `("a", "b")` becomes the one label `('a', 'b')`. */
  lemma TupleIsNotPassedThrough()
    ensures CleanChoices(Tuple(["a", "b"], "('a', 'b')")) == ["('a', 'b')"]
    ensures CleanChoices(Items(["a", "b"])) == ["a", "b"]
  {
    var shown := "('a', 'b')";
    assert Stripped(shown) && BreakFree(shown);
    CleanOneLine(shown);
  }

  /** A stripped line without boundaries cleans to itself alone. */
  lemma CleanOneLine(line: string)
    requires Stripped(line) && BreakFree(line)
    ensures Keep(SplitLines(line)) == [line]
  {
    SplitOneLine(line);
    StripStripped(line);
    assert Keep([line]) == [line] + Keep([]);
  }

  /** Joining labels that are stripped and free of line boundaries and
      cleaning the text gives the same labels back. */
  lemma CleanJoin(labels: seq<string>)
    requires forall k :: 0 <= k < |labels| ==> Stripped(labels[k]) && BreakFree(labels[k])
    ensures CleanChoices(Text(Join(labels))) == labels
  {
    if labels != [] {
      SplitJoin(labels);
      KeepStripped(labels);
      assert Join(labels) != "" by {
        if |labels| > 1 {
          assert |Join(labels)| >= |labels[0]|;
        }
      }
    }
  }

  /** Cleaning is idempotent: cleaning the join of a cleaned list gives that
      list again. */
  lemma CleanIdempotent(text: string)
    ensures CleanChoices(Text(Join(CleanChoices(Text(text))))) == CleanChoices(Text(text))
  {
    CleanJoin(CleanChoices(Text(text)));
  }

  /** The list `[line.strip() for ...]` holds the non-blank lines in line
      order: stated for the text branch of `clean_choices`. */
  lemma CleanChoicesLines(text: string)
    requires text != ""
    ensures var lines, labels := SplitLines(text), CleanChoices(Text(text));
      var idx := NonBlank(lines, 0);
      |labels| == |idx| &&
      (forall k :: 0 <= k < |idx| ==> idx[k] < |lines| && labels[k] == Strip(lines[idx[k]])) &&
      (forall k, m :: 0 <= k < m < |idx| ==> idx[k] < idx[m]) &&
      (forall i :: 0 <= i < |lines| ==> (i in idx <==> Strip(lines[i]) != ""))
  {
    var lines := SplitLines(text);
    KeepIsNonBlankLines(lines, 0);
    assert lines[0..] == lines;
  }

  // ---------------------------------------------------------------------
  // QuestionForm.__init__ and clean_context
  // ---------------------------------------------------------------------

  /** The choices an unbound form shows: a stored list or tuple becomes its
      labels joined by newlines; anything else, and a bound form, is left
      alone. */
  function InitialChoices(bound: bool, initial: FieldValue): (shown: FieldValue)
    ensures bound || !(initial.Items? || initial.Tuple?) ==> shown == initial
    ensures !bound && (initial.Items? || initial.Tuple?) ==> shown.Text?
  {
    if !bound && (initial.Items? || initial.Tuple?) then Text(Join(initial.items)) else initial
  }

  /** Editing a question and saving the form unchanged gives back the stored
      choices, when every label is stripped and on one line. */
  lemma EditRoundTrip(labels: seq<string>)
    requires forall k :: 0 <= k < |labels| ==> Stripped(labels[k]) && BreakFree(labels[k])
    ensures CleanChoices(InitialChoices(false, Items(labels))) == labels
  {
    CleanJoin(labels);
  }

  /** What the context field holds: nothing, text, or an already decoded
      object of type `V`. */
  datatype ContextField<V> = NoContext | ContextText(text: string) | Decoded(value: V)

  /** The outcome of a clean: a value, or the message of the validation
      error. */
  datatype Outcome<T> = Valid(value: T) | Invalid(message: string)

  const InvalidJson: string := "Enter valid JSON"

  /** `clean_context`. `emptyObject` stands for `{}` and `loads` for
      `json.loads`, failing with `None`. Empty input is `{}` whatever `loads`
      does; a decoded object is taken as it is. */
  function CleanContext<V>(data: ContextField<V>, emptyObject: V, loads: string -> Option<V>): (r: Outcome<V>)
    ensures data.NoContext? || data == ContextText("") ==> r == Valid(emptyObject)
    ensures data.Decoded? ==> r == Valid(data.value)
    ensures data.ContextText? && data.text != "" && loads(data.text).Some? ==> r == Valid(loads(data.text).value)
    ensures r.Invalid? <==> data.ContextText? && data.text != "" && loads(data.text).None?
    ensures r.Invalid? ==> r.message == InvalidJson
  {
    match data
    case NoContext => Valid(emptyObject)
    case ContextText(t) =>
      if t == "" then Valid(emptyObject)
      else
        (match loads(t)
         case Some(v) => Valid(v)
         case None => Invalid(InvalidJson))
    case Decoded(v) => Valid(v)
  }
}

=== FILE: models.dfy ===
/** The entities of the poll application: a parameterised question and the
    answers collected for it. The JSON fields of the Django models become
    Dafny values; a JSON object becomes either a sequence of entries in key
    insertion order (where that order is observable) or a `map`. */
module Models {

  datatype Option<T> = None | Some(value: T)

  /** The value of one context dimension: a single scalar, or a list of
      alternatives. Scalars are modelled as their text. */
  datatype DimensionValue = Single(value: string) | Listed(values: seq<string>)

  /** One key of a question's context object together with its value. */
  datatype Dimension = Dimension(name: string, value: DimensionValue)

  /** A question: its template text, its context object (entries in key
      insertion order) and its candidate choices, duplicates allowed. */
  datatype Question = Question(template: string, context: seq<Dimension>, choices: seq<string>)
  {
    /** The keys of a JSON object are pairwise distinct. */
    predicate WellFormed() {
      forall i, j :: 0 <= i < j < |context| ==> context[i].name != context[j].name
    }
  }

  /** The keys of a context object, in insertion order:
      `question.context.keys()`. */
  function Names(ctx: seq<Dimension>): seq<string> {
    seq(|ctx|, i requires 0 <= i < |ctx| => ctx[i].name)
  }

  /** One collected answer: the context assignment it was asked under, the
      pair it was shown as an object `{"A": label, "B": label}`, and the slot
      that was picked. */
  datatype Answer = Answer(context: map<string, string>, choices: map<string, string>, choice: string)

  /** `d.get(k)` on a JSON object. */
  function Get(m: map<string, string>, k: string): Option<string> {
    if k in m then Some(m[k]) else None
  }
}

=== FILE: pairs.dfy ===
/** Pair generation for a question (`Question.choice_pairs`): duplicate
    choices are dropped in first-seen order, then every combination (or,
    when order matters, every permutation) of two items is produced as an
    `{"A": a, "B": b}` record. */
module Pairs {

  /** The record `{"A": a, "B": b}` shown to the model. */
  datatype Pair = Pair(a: string, b: string)

  predicate NoDuplicates(s: seq<string>) {
    forall i, j :: 0 <= i < j < |s| ==> s[i] != s[j]
  }

  /** The items of `s` in order of first appearance, later repeats dropped. */
  function Distinct(s: seq<string>): seq<string>
    decreases |s|
  {
    if s == [] then []
    else
      var init, x := s[..|s| - 1], s[|s| - 1];
      if x in init then Distinct(init) else Distinct(init) + [x]
  }

  /** Deduplication keeps exactly the items of the input, each once. */
  lemma {:induction false} DistinctMembers(s: seq<string>)
    ensures NoDuplicates(Distinct(s))
    ensures forall x :: x in Distinct(s) <==> x in s
    ensures |Distinct(s)| <= |s|
    decreases |s|
  {
    if s != [] {
      DistinctMembers(s[..|s| - 1]);
    }
  }

  /** Deduplication keeps first-seen order: every item of the result occurs
      in the input before any occurrence of an item that follows it. */
  lemma {:induction false} DistinctIsFirstSeenOrder(s: seq<string>)
    ensures forall i, j, p :: 0 <= i < j < |Distinct(s)| && 0 <= p < |s| && s[p] == Distinct(s)[j] ==> Distinct(s)[i] in s[..p]
    decreases |s|
  {
    if s != [] {
      var init, x := s[..|s| - 1], s[|s| - 1];
      DistinctIsFirstSeenOrder(init);
      DistinctMembers(init);
      var d := Distinct(init);
      var r := Distinct(s);
      forall i, j, p | 0 <= i < j < |r| && 0 <= p < |s| && s[p] == r[j]
        ensures r[i] in s[..p]
      {
        assert p < |s| - 1 ==> s[p] == init[p] && s[..p] == init[..p];
        if j < |d| {
          if p == |s| - 1 {
            assert s[..p] == init;
          }
        } else {
          // r[j] is x, absent from init, so its only occurrence is the last one
          assert r[j] == x && x !in init;
          assert p == |s| - 1;
          assert s[..p] == init;
        }
      }
    }
  }

  /** A list without repeats is left as it is. */
  lemma {:induction false} DistinctOfDistinct(s: seq<string>)
    requires NoDuplicates(s)
    ensures Distinct(s) == s
    decreases |s|
  {
    if s != [] {
      var init := s[..|s| - 1];
      assert NoDuplicates(init);
      DistinctOfDistinct(init);
      assert s[|s| - 1] !in init;
      assert init + [s[|s| - 1]] == s;
    }
  }

  /** The comprehension at the top of `choice_pairs`: a `seen` set grows as
      the choices are scanned and an item is kept when it was not yet seen. */
  method DeduplicateChoices(items: seq<string>) returns (kept: seq<string>)
    ensures kept == Distinct(items)
  {
    var seen: set<string> := {};
    kept := [];
    for i := 0 to |items|
      invariant kept == Distinct(items[..i])
      invariant forall x :: x in seen <==> x in items[..i]
    {
      var x := items[i];
      assert items[..i + 1][..i] == items[..i];
      if x !in seen {
        seen := seen + {x};
        kept := kept + [x];
      }
    }
    assert items[..|items|] == items;
  }

  predicate InRange(idx: seq<(nat, nat)>, n: nat) {
    forall k :: 0 <= k < |idx| ==> idx[k].0 < n && idx[k].1 < n
  }

  /** The strict lexicographic order on index pairs. */
  predicate LexLess(p: (nat, nat), q: (nat, nat)) {
    p.0 < q.0 || (p.0 == q.0 && p.1 < q.1)
  }

  /** The index pairs `(i, j)` with `from <= i < j < n`, in the order
      `itertools.combinations` yields them. */
  function CombinationsFrom(from: nat, n: nat): seq<(nat, nat)>
    decreases n - from
  {
    if from >= n then []
    else seq(n - from - 1, (k: int) => (from, from + 1 + k)) + CombinationsFrom(from + 1, n)
  }

  /** The index pairs `(i, j)` with `from <= i < n`, `j < n` and `i != j`, in
      the order `itertools.permutations(_, 2)` yields them. */
  function PermutationsFrom(from: nat, n: nat): seq<(nat, nat)>
    decreases n - from
  {
    if from >= n then []
    else seq(from, (k: int) => (from, k)) + seq(n - from - 1, (k: int) => (from, from + 1 + k)) + PermutationsFrom(from + 1, n)
  }


  /** Index pairs with `from <= i < j < n`, all of them, in strictly
      increasing lexicographic order. */
  predicate CombinationsShape(s: seq<(nat, nat)>, from: nat, n: nat) {
    (forall k :: 0 <= k < |s| ==> from <= s[k].0 < s[k].1 < n) &&
    (forall i, j :: from <= i < j < n ==> (i, j) in s) &&
    (forall k, l :: 0 <= k < l < |s| ==> LexLess(s[k], s[l]))
  }

  /** Index pairs of distinct positions below `n` led by `from` or later,
      all of them, in strictly increasing lexicographic order. */
  predicate PermutationsShape(s: seq<(nat, nat)>, from: nat, n: nat) {
    (forall k :: 0 <= k < |s| ==> from <= s[k].0 < n && s[k].1 < n && s[k].0 != s[k].1) &&
    (forall i, j :: from <= i < n && 0 <= j < n && i != j ==> (i, j) in s) &&
    (forall k, l :: 0 <= k < l < |s| ==> LexLess(s[k], s[l]))
  }

  /** A strictly increasing run of pairs led by `from`, then one led by
      larger indices, is strictly increasing as a whole. */
  lemma AppendLexSorted(a: seq<(nat, nat)>, b: seq<(nat, nat)>, from: nat)
    requires forall k, l :: 0 <= k < l < |a| ==> LexLess(a[k], a[l])
    requires forall k, l :: 0 <= k < l < |b| ==> LexLess(b[k], b[l])
    requires forall k :: 0 <= k < |a| ==> a[k].0 == from
    requires forall k :: 0 <= k < |b| ==> b[k].0 > from
    ensures forall k, l :: 0 <= k < l < |a + b| ==> LexLess((a + b)[k], (a + b)[l])
  {
    forall k, l | 0 <= k < l < |a + b| ensures LexLess((a + b)[k], (a + b)[l]) {
      if l >= |a| {
        assert (a + b)[l] == b[l - |a|];
        if k >= |a| {
          assert (a + b)[k] == b[k - |a|];
        }
      }
    }
  }

  /** The row of `from` in the combinations: every larger index, in
      increasing order. */
  lemma CombinationRow(from: nat, n: nat)
    requires from < n
    ensures var row := seq(n - from - 1, (k: int) => (from, from + 1 + k));
      |row| == n - from - 1 &&
      (forall k :: 0 <= k < |row| ==> row[k].0 == from && from < row[k].1 < n) &&
      (forall j :: from < j < n ==> (from, j) in row) &&
      (forall k, l :: 0 <= k < l < |row| ==> LexLess(row[k], row[l]))
  {
    var row := seq(n - from - 1, (k: int) => (from, from + 1 + k));
    forall j | from < j < n ensures (from, j) in row {
      assert row[j - from - 1] == (from, j);
    }
  }

  /** The row of `from` followed by the combinations led by larger indices
      are the combinations led by `from` or later. */
  lemma CombinationsStep(from: nat, n: nat, rest: seq<(nat, nat)>)
    requires from < n && CombinationsShape(rest, from + 1, n)
    ensures CombinationsShape(seq(n - from - 1, (k: int) => (from, from + 1 + k)) + rest, from, n)
  {
    var row := seq(n - from - 1, (k: int) => (from, from + 1 + k));
    CombinationRow(from, n);
    AppendLexSorted(row, rest, from);
    var all := row + rest;
    forall k | 0 <= k < |all| ensures from <= all[k].0 < all[k].1 < n {
      if k >= |row| {
        assert all[k] == rest[k - |row|];
      }
    }
    forall i, j | from <= i < j < n ensures (i, j) in all {
      if i > from {
        assert (i, j) in rest;
      } else {
        assert (i, j) in row;
      }
    }
  }

  /** `combinations(range(n), 2)` yields n·(n−1)/2 index pairs, each with
      its first index below its second, every such pair among them, in
      strictly increasing lexicographic order (so none twice). */
  lemma {:induction false} CombinationsFromSpec(from: nat, n: nat)
    requires from <= n
    ensures 2 * |CombinationsFrom(from, n)| == (n - from) * (n - from - 1)
    ensures CombinationsShape(CombinationsFrom(from, n), from, n)
    decreases n - from
  {
    CombinationsFromLength(from, n);
    if from < n {
      var rest := CombinationsFrom(from + 1, n);
      CombinationsFromSpec(from + 1, n);
      CombinationsStep(from, n, rest);
      assert CombinationsFrom(from, n) == seq(n - from - 1, (k: int) => (from, from + 1 + k)) + rest;
    }
  }

  lemma {:induction false} CombinationsFromLength(from: nat, n: nat)
    requires from <= n
    ensures 2 * |CombinationsFrom(from, n)| == (n - from) * (n - from - 1)
    decreases n - from
  {
    if from < n {
      CombinationsFromLength(from + 1, n);
      var m := n - from;
      assert m * (m - 1) == 2 * (m - 1) + (m - 1) * (m - 2);
    }
  }

  function CombinationIndices(n: nat): (r: seq<(nat, nat)>)
    ensures InRange(r, n)
  {
    CombinationsFromSpec(0, n);
    CombinationsFrom(0, n)
  }

  lemma CombinationIndicesSpec(n: nat)
    ensures 2 * |CombinationIndices(n)| == n * (n - 1)
    ensures forall k :: 0 <= k < |CombinationIndices(n)| ==>
      CombinationIndices(n)[k].0 < CombinationIndices(n)[k].1 < n
    ensures forall i, j :: 0 <= i < j < n ==> (i, j) in CombinationIndices(n)
    ensures forall k, l :: 0 <= k < l < |CombinationIndices(n)| ==>
      LexLess(CombinationIndices(n)[k], CombinationIndices(n)[l])
  {
    CombinationsFromSpec(0, n);
  }

  /** The row of `from` in the permutations: every other index, in
      increasing order. */
  lemma PermutationRow(from: nat, n: nat)
    requires from < n
    ensures var row := seq(from, (k: int) => (from, k)) + seq(n - from - 1, (k: int) => (from, from + 1 + k));
      |row| == n - 1 &&
      (forall k :: 0 <= k < |row| ==> row[k].0 == from && row[k].1 < n && row[k].1 != from) &&
      (forall j :: 0 <= j < n && j != from ==> (from, j) in row) &&
      (forall k, l :: 0 <= k < l < |row| ==> LexLess(row[k], row[l]))
  {
    var below := seq(from, (k: int) => (from, k));
    var above := seq(n - from - 1, (k: int) => (from, from + 1 + k));
    var row := below + above;
    forall k | 0 <= k < |row| ensures row[k] == if k < from then (from, k) else (from, k + 1) {
      if k >= from {
        assert row[k] == above[k - from];
      }
    }
    forall j | 0 <= j < n && j != from ensures (from, j) in row {
      if j < from {
        assert row[j] == (from, j);
      } else {
        assert row[j - 1] == (from, j);
      }
    }
  }

  /** The row of `from` followed by the permutations led by larger indices
      are the permutations led by `from` or later. */
  lemma PermutationsStep(from: nat, n: nat, row: seq<(nat, nat)>, rest: seq<(nat, nat)>)
    requires from < n && PermutationsShape(rest, from + 1, n)
    requires row == seq(from, (k: int) => (from, k)) + seq(n - from - 1, (k: int) => (from, from + 1 + k))
    ensures |row| == n - 1 && PermutationsShape(row + rest, from, n)
  {
    PermutationRow(from, n);
    AppendLexSorted(row, rest, from);
    var all := row + rest;
    forall k | 0 <= k < |all|
      ensures from <= all[k].0 < n && all[k].1 < n && all[k].0 != all[k].1
    {
      if k >= |row| {
        assert all[k] == rest[k - |row|];
      }
    }
    forall i, j | from <= i < n && 0 <= j < n && i != j ensures (i, j) in all {
      if i > from {
        assert (i, j) in rest;
      } else {
        assert (i, j) in row;
      }
    }
  }

  /** `permutations(range(n), 2)` yields n·(n−1) index pairs of distinct
      positions, every such pair among them, in strictly increasing
      lexicographic order (so none twice). */
  lemma {:induction false} PermutationsFromSpec(from: nat, n: nat)
    requires from <= n
    ensures |PermutationsFrom(from, n)| == (n - from) * (n - 1)
    ensures PermutationsShape(PermutationsFrom(from, n), from, n)
    decreases n - from
  {
    PermutationsFromLength(from, n);
    if from < n {
      var row := seq(from, (k: int) => (from, k)) + seq(n - from - 1, (k: int) => (from, from + 1 + k));
      var rest := PermutationsFrom(from + 1, n);
      PermutationsFromSpec(from + 1, n);
      PermutationsStep(from, n, row, rest);
      assert PermutationsFrom(from, n) == row + rest;
    }
  }

  lemma {:induction false} PermutationsFromLength(from: nat, n: nat)
    requires from <= n
    ensures |PermutationsFrom(from, n)| == (n - from) * (n - 1)
    decreases n - from
  {
    if from < n {
      PermutationsFromLength(from + 1, n);
      var m := n - from;
      assert m * (n - 1) == (n - 1) + (m - 1) * (n - 1);
    }
  }

  function PermutationIndices(n: nat): (r: seq<(nat, nat)>)
    ensures InRange(r, n)
  {
    PermutationsFromSpec(0, n);
    PermutationsFrom(0, n)
  }

  lemma PermutationIndicesSpec(n: nat)
    ensures |PermutationIndices(n)| == n * (n - 1)
    ensures forall k :: 0 <= k < |PermutationIndices(n)| ==>
      PermutationIndices(n)[k].0 < n && PermutationIndices(n)[k].1 < n &&
      PermutationIndices(n)[k].0 != PermutationIndices(n)[k].1
    ensures forall i, j :: 0 <= i < n && 0 <= j < n && i != j ==> (i, j) in PermutationIndices(n)
    ensures forall k, l :: 0 <= k < l < |PermutationIndices(n)| ==>
      LexLess(PermutationIndices(n)[k], PermutationIndices(n)[l])
  {
    PermutationsFromSpec(0, n);
  }

  /** `[{"A": a, "B": b} for a, b in pair_iter]`, the pair iterator given by
      the positions it picks. */
  function PairsAt(items: seq<string>, idx: seq<(nat, nat)>): (r: seq<Pair>)
    requires InRange(idx, |items|)
    ensures |r| == |idx|
  {
    seq(|idx|, k requires 0 <= k < |idx| => Pair(items[idx[k].0], items[idx[k].1]))
  }

  /** The items `choice_pairs` pairs up: the choices, deduplicated unless
      the caller opts out (a missing choice list is the empty list). */
  function PairedItems(choices: seq<string>, deduplicate: bool): seq<string> {
    if deduplicate then Distinct(choices) else choices
  }

  /** Every chosen index pair gives the pair of the items at those
      positions. */
  lemma PairsAtCover(items: seq<string>, idx: seq<(nat, nat)>, i: nat, j: nat)
    requires InRange(idx, |items|)
    ensures (i, j) in idx ==> Pair(items[i], items[j]) in PairsAt(items, idx)
  {
    if (i, j) in idx {
      var k :| 0 <= k < |idx| && idx[k] == (i, j);
      assert PairsAt(items, idx)[k] == Pair(items[i], items[j]);
    }
  }

  /** Over items without repeats, index pairs of distinct positions in
      strictly increasing order give pairs that are never self-pairs and
      never repeated; when each first index is below its second, no pair
      appears in both orientations either. */
  lemma PairsAtDistinct(items: seq<string>, idx: seq<(nat, nat)>, below: bool)
    requires InRange(idx, |items|) && NoDuplicates(items)
    requires forall k :: 0 <= k < |idx| ==> idx[k].0 != idx[k].1 && (below ==> idx[k].0 < idx[k].1)
    requires forall k, l :: 0 <= k < l < |idx| ==> LexLess(idx[k], idx[l])
    ensures forall k :: 0 <= k < |idx| ==> PairsAt(items, idx)[k].a != PairsAt(items, idx)[k].b
    ensures forall k, l :: 0 <= k < l < |idx| ==>
      PairsAt(items, idx)[k] != PairsAt(items, idx)[l] &&
      (below ==> PairsAt(items, idx)[k] != Pair(PairsAt(items, idx)[l].b, PairsAt(items, idx)[l].a))
  {
    var ps := PairsAt(items, idx);
    forall k | 0 <= k < |idx| ensures ps[k].a != ps[k].b {
      assert ps[k] == Pair(items[idx[k].0], items[idx[k].1]);
    }
    forall k, l | 0 <= k < l < |idx|
      ensures ps[k] != ps[l] && (below ==> ps[k] != Pair(ps[l].b, ps[l].a))
    {
      assert ps[k] == Pair(items[idx[k].0], items[idx[k].1]);
      assert ps[l] == Pair(items[idx[l].0], items[idx[l].1]);
      assert LexLess(idx[k], idx[l]);
    }
  }

  /** `Question.choice_pairs(ordered=..., deduplicate=...)`. */
  method ChoicePairs(choices: seq<string>, ordered: bool, deduplicate: bool) returns (pairs: seq<Pair>)
    // the combinations, or permutations, of the paired items, in itertools order
    ensures var items := PairedItems(choices, deduplicate);
      pairs == PairsAt(items, if ordered then PermutationIndices(|items|) else CombinationIndices(|items|))
    // n·(n−1)/2 combinations or n·(n−1) permutations; none when fewer than two items remain
    ensures var n := |PairedItems(choices, deduplicate)|;
      if ordered then |pairs| == n * (n - 1) else 2 * |pairs| == n * (n - 1)
    // every choice of two positions (A before B when unordered) gives a pair
    ensures var items := PairedItems(choices, deduplicate);
      forall i, j :: 0 <= i < |items| && 0 <= j < |items| && (if ordered then i != j else i < j) ==>
        Pair(items[i], items[j]) in pairs
    // after deduplication: no self-pair, no pair twice, and unordered never both orientations
    ensures deduplicate ==> forall k :: 0 <= k < |pairs| ==> pairs[k].a != pairs[k].b
    ensures deduplicate ==> forall k, l :: 0 <= k < l < |pairs| ==>
      pairs[k] != pairs[l] && (!ordered ==> pairs[k] != Pair(pairs[l].b, pairs[l].a))
  {
    var items := choices;
    if deduplicate {
      items := DeduplicateChoices(choices);
    }
    var n := |items|;
    CombinationIndicesSpec(n);
    PermutationIndicesSpec(n);
    var idx := if ordered then PermutationIndices(n) else CombinationIndices(n);
    if n < 2 {
      assert n * (n - 1) == 0;
      return [];
    }
    pairs := PairsAt(items, idx);
    forall i, j | 0 <= i < n && 0 <= j < n && (if ordered then i != j else i < j)
      ensures Pair(items[i], items[j]) in pairs
    {
      PairsAtCover(items, idx, i, j);
    }
    if deduplicate {
      DistinctMembers(choices);
      PairsAtDistinct(items, idx, !ordered);
    }
  }

  /** Pair `k` of `choice_pairs` takes its A and its B from two different
      positions of the paired items, A's position first when unordered. */
  lemma PairsComeFromItems(items: seq<string>, ordered: bool, k: nat)
    requires k < |if ordered then PermutationIndices(|items|) else CombinationIndices(|items|)|
    ensures var idx := if ordered then PermutationIndices(|items|) else CombinationIndices(|items|);
      var (i, j) := idx[k];
      i < |items| && j < |items| && (if ordered then i != j else i < j) &&
      PairsAt(items, idx)[k] == Pair(items[i], items[j])
  {
    var idx := if ordered then PermutationIndices(|items|) else CombinationIndices(|items|);
    CombinationIndicesSpec(|items|);
    PermutationIndicesSpec(|items|);
    assert PairsAt(items, idx)[k] == Pair(items[idx[k].0], items[idx[k].1]);
  }

  lemma CombinationsOfThree()
    ensures CombinationIndices(3) == [(0, 1), (0, 2), (1, 2)]
  {
    assert CombinationsFrom(2, 3) == [] + CombinationsFrom(3, 3);
    assert CombinationsFrom(1, 3) == [(1, 2)] + CombinationsFrom(2, 3);
    assert CombinationsFrom(0, 3) == [(0, 1), (0, 2)] + CombinationsFrom(1, 3);
  }

  lemma PermutationsOfThree()
    ensures PermutationIndices(3) == [(0, 1), (0, 2), (1, 0), (1, 2), (2, 0), (2, 1)]
  {
    assert PermutationsFrom(2, 3) == [(2, 0), (2, 1)] + [] + PermutationsFrom(3, 3);
    assert PermutationsFrom(1, 3) == [(1, 0)] + [(1, 2)] + PermutationsFrom(2, 3);
    assert PermutationsFrom(0, 3) == [] + [(0, 1), (0, 2)] + PermutationsFrom(1, 3);
  }

  /** The example of `Question.choice_pairs`' docstring. */
  lemma DocstringExample()
    ensures PairsAt(["Turkey", "Mexico", "Germany"], CombinationIndices(3)) ==
      [Pair("Turkey", "Mexico"), Pair("Turkey", "Germany"), Pair("Mexico", "Germany")]
    ensures PairsAt(["Turkey", "Mexico", "Germany"], PermutationIndices(3)) ==
      [Pair("Turkey", "Mexico"), Pair("Turkey", "Germany"),
       Pair("Mexico", "Turkey"), Pair("Mexico", "Germany"),
       Pair("Germany", "Turkey"), Pair("Germany", "Mexico")]
  {
    CombinationsOfThree();
    PermutationsOfThree();
  }

  /** Choices `[A, A, B]` give the single pair `{A: A, B: B}`. */
  lemma RepeatedChoiceExample()
    ensures Distinct(["A", "A", "B"]) == ["A", "B"]
    ensures PairsAt(Distinct(["A", "A", "B"]), CombinationIndices(2)) == [Pair("A", "B")]
  {
    assert ["A", "A", "B"][..2] == ["A", "A"];
    assert ["A", "A"][..1] == ["A"];
    assert CombinationIndices(2) == [(0, 1)];
  }
}

=== FILE: ranking.dfy ===
/** The ranking step of the Elo endpoint: `sorted(entries, key=rating,
    reverse=True)`. Python's sort is stable, also in reverse, so entries
    with equal ratings keep their original relative order. Modelled here
    as an insertion sort, characterised by the three properties the
    library promises. */
module Ranking {

  /** One `{"choice": c, "rating": r}` entry. */
  datatype Ranked = Ranked(choice: string, rating: real)

  predicate Descending(s: seq<Ranked>) {
    forall i, j :: 0 <= i < j < |s| ==> s[i].rating >= s[j].rating
  }

  /** The entries rated exactly `v`, in their order. */
  function RatedAt(s: seq<Ranked>, v: real): seq<Ranked>
    decreases |s|
  {
    if s == [] then [] else (if s[0].rating == v then [s[0]] else []) + RatedAt(s[1..], v)
  }

  /** Places `x` after every entry rated at least as high. */
  function Insert(sorted: seq<Ranked>, x: Ranked): seq<Ranked>
    decreases |sorted|
  {
    if sorted == [] then [x]
    else if sorted[0].rating >= x.rating then [sorted[0]] + Insert(sorted[1..], x)
    else [x] + sorted
  }

  /** Inserts the entries one by one, in their order: a permutation of the
      entries. */
  function SortDescending(s: seq<Ranked>): (r: seq<Ranked>)
    ensures multiset(r) == multiset(s)
    decreases |s|
  {
    if s == [] then []
    else
      assert s == s[..|s| - 1] + [s[|s| - 1]];
      InsertAdds(SortDescending(s[..|s| - 1]), s[|s| - 1]);
      Insert(SortDescending(s[..|s| - 1]), s[|s| - 1])
  }

  /** Inserting adds exactly the one entry. */
  lemma {:induction false} InsertAdds(sorted: seq<Ranked>, x: Ranked)
    ensures multiset(Insert(sorted, x)) == multiset(sorted) + multiset{x}
    decreases |sorted|
  {
    if sorted != [] && sorted[0].rating >= x.rating {
      InsertAdds(sorted[1..], x);
      assert sorted == [sorted[0]] + sorted[1..];
    }
  }

  lemma {:induction false} RatedAtAppend(a: seq<Ranked>, b: seq<Ranked>, v: real)
    ensures RatedAt(a + b, v) == RatedAt(a, v) + RatedAt(b, v)
    decreases |a|
  {
    if a == [] {
      assert a + b == b;
    } else {
      RatedAtAppend(a[1..], b, v);
      assert (a + b)[0] == a[0] && (a + b)[1..] == a[1..] + b;
      var h := if a[0].rating == v then [a[0]] else [];
      assert RatedAt(a + b, v) == h + RatedAt(a[1..] + b, v);
      assert RatedAt(a, v) == h + RatedAt(a[1..], v);
      assert h + (RatedAt(a[1..], v) + RatedAt(b, v)) == (h + RatedAt(a[1..], v)) + RatedAt(b, v);
    }
  }

  lemma {:induction false} RatedAtNone(s: seq<Ranked>, v: real)
    requires forall k :: 0 <= k < |s| ==> s[k].rating != v
    ensures RatedAt(s, v) == []
    decreases |s|
  {
    if s != [] {
      RatedAtNone(s[1..], v);
    }
  }

  /** An entry rated at least as high as every entry of a descending list
      can go in front of it. */
  lemma PrependDescending(h: Ranked, r: seq<Ranked>)
    requires Descending(r)
    requires forall k :: 0 <= k < |r| ==> h.rating >= r[k].rating
    ensures Descending([h] + r)
  {
    var all := [h] + r;
    forall i, j | 0 <= i < j < |all| ensures all[i].rating >= all[j].rating {
      assert all[j] == r[j - 1];
      if i > 0 {
        assert all[i] == r[i - 1];
      }
    }
  }

  /** Inserting keeps every rating under a common bound. */
  lemma {:induction false} InsertBounded(sorted: seq<Ranked>, x: Ranked, bound: real)
    requires x.rating <= bound
    requires forall k :: 0 <= k < |sorted| ==> sorted[k].rating <= bound
    ensures forall k :: 0 <= k < |Insert(sorted, x)| ==> Insert(sorted, x)[k].rating <= bound
    decreases |sorted|
  {
    if sorted != [] && sorted[0].rating >= x.rating {
      var t := sorted[1..];
      InsertBounded(t, x, bound);
      var r := [sorted[0]] + Insert(t, x);
      assert Insert(sorted, x) == r;
      forall k | 0 < k < |r| ensures r[k].rating <= bound {
        assert r[k] == Insert(t, x)[k - 1];
      }
    } else if sorted != [] {
      var r := [x] + sorted;
      assert Insert(sorted, x) == r;
      forall k | 0 < k < |r| ensures r[k].rating <= bound {
        assert r[k] == sorted[k - 1];
      }
    }
  }

  /** Inserting into a descending list keeps it descending. */
  lemma {:induction false} InsertKeepsDescending(sorted: seq<Ranked>, x: Ranked)
    requires Descending(sorted)
    ensures Descending(Insert(sorted, x))
    decreases |sorted|
  {
    if sorted == [] {
      assert Insert(sorted, x) == [x];
    } else if sorted[0].rating >= x.rating {
      var h, t := sorted[0], sorted[1..];
      DescendingTail(sorted);
      InsertKeepsDescending(t, x);
      InsertBounded(t, x, h.rating);
      assert Insert(sorted, x) == [h] + Insert(t, x);
      PrependDescending(h, Insert(t, x));
    } else {
      assert Insert(sorted, x) == [x] + sorted;
      PrependDescending(x, sorted);
    }
  }

  lemma RatedAtCons(h: Ranked, r: seq<Ranked>, v: real)
    ensures RatedAt([h] + r, v) == (if h.rating == v then [h] else []) + RatedAt(r, v)
  {
    assert ([h] + r)[0] == h && ([h] + r)[1..] == r;
  }

  lemma DescendingTail(s: seq<Ranked>)
    requires s != [] && Descending(s)
    ensures Descending(s[1..])
  {
    forall i, j | 0 <= i < j < |s| - 1 ensures s[1..][i].rating >= s[1..][j].rating {
      assert s[1..][i] == s[i + 1] && s[1..][j] == s[j + 1];
    }
  }

  /** No entry of a descending list is rated above its first. */
  lemma {:induction false} RatedAboveFirst(s: seq<Ranked>, v: real)
    requires s != [] && Descending(s) && s[0].rating < v
    ensures RatedAt(s, v) == []
  {
    forall k | 0 <= k < |s| ensures s[k].rating != v {
      if k > 0 {
        assert s[0].rating >= s[k].rating;
      }
    }
    RatedAtNone(s, v);
  }

  /** The step of `InsertAfterEqual` where `x` goes past the head. */
  lemma InsertPastHead(sorted: seq<Ranked>, x: Ranked, v: real)
    requires sorted != [] && sorted[0].rating >= x.rating
    requires RatedAt(Insert(sorted[1..], x), v) == RatedAt(sorted[1..], v) + (if x.rating == v then [x] else [])
    ensures RatedAt(Insert(sorted, x), v) == RatedAt(sorted, v) + (if x.rating == v then [x] else [])
  {
    var h, t := sorted[0], sorted[1..];
    var own := if x.rating == v then [x] else [];
    var head := if h.rating == v then [h] else [];
    assert sorted == [h] + t;
    RatedAtCons(h, t, v);
    assert Insert(sorted, x) == [h] + Insert(t, x);
    RatedAtCons(h, Insert(t, x), v);
    assert head + (RatedAt(t, v) + own) == (head + RatedAt(t, v)) + own;
  }

  /** The step of `InsertAfterEqual` where `x` goes in front. */
  lemma InsertInFront(sorted: seq<Ranked>, x: Ranked, v: real)
    requires sorted != [] && Descending(sorted) && sorted[0].rating < x.rating
    ensures RatedAt(Insert(sorted, x), v) == RatedAt(sorted, v) + (if x.rating == v then [x] else [])
  {
    assert Insert(sorted, x) == [x] + sorted;
    RatedAtCons(x, sorted, v);
    if x.rating == v {
      RatedAboveFirst(sorted, v);
    }
  }

  /** Inserting into a descending list puts the new entry after the entries
      already rated the same. */
  lemma {:induction false} InsertAfterEqual(sorted: seq<Ranked>, x: Ranked, v: real)
    requires Descending(sorted)
    ensures RatedAt(Insert(sorted, x), v) == RatedAt(sorted, v) + (if x.rating == v then [x] else [])
    decreases |sorted|
  {
    if sorted == [] {
      RatedAtCons(x, [], v);
      assert [x] + [] == [x];
    } else if sorted[0].rating >= x.rating {
      DescendingTail(sorted);
      InsertAfterEqual(sorted[1..], x, v);
      InsertPastHead(sorted, x, v);
    } else {
      InsertInFront(sorted, x, v);
    }
  }

  /** The ranking is in descending order of rating, holds exactly the
      entries given, and is stable: the entries rated the same keep their
      original relative order. */
  lemma {:induction false} SortDescendingSpec(s: seq<Ranked>)
    ensures Descending(SortDescending(s))
    ensures forall v :: RatedAt(SortDescending(s), v) == RatedAt(s, v)
    decreases |s|
  {
    if s != [] {
      var init, x := s[..|s| - 1], s[|s| - 1];
      assert s == init + [x];
      SortDescendingSpec(init);
      InsertKeepsDescending(SortDescending(init), x);
      forall v ensures RatedAt(SortDescending(s), v) == RatedAt(s, v) {
        InsertAfterEqual(SortDescending(init), x, v);
        RatedAtAppend(init, [x], v);
        assert RatedAt([x], v) == if x.rating == v then [x] else [];
      }
    }
  }
}
